=== FILE: README.md ===
# Binary-tree layout engine of visual-algorithm, in Dafny

This project models the binary-tree engine of the visual-algorithm web app
(`static/js/tree/binary_tree.js` and `static/js/tree/tree_node.js`). The
engine holds a tree of `TreeNode`s and a selected node. It inserts a new node
to the left or right of the selection. It lays the tree out on a canvas:
`toArray` cuts the tree into levels, with `null` placeholders for absent
children. `calculateNodeRadius` and `computeSpacings` derive the circle
radius and the spacings from the canvas size and the tree's `width` and
`height`. `drawNodes` positions the deepest level evenly and puts every
parent at the midpoint of its two child slots. A click selects the node
under the pointer (`updateSelectedNode`). The engine redraws and notifies
only when the selection changes.

The model is purely functional:

- `Tree<V>` (module `TreeNodes`, file `tree_node.dfy`) is the node record. `Nil` is a `null` child.
- `Engine<V>` (module `BinaryTrees`, `engine.dfy`) holds the root, the selection and the radius. The selection is the path of `Left`/`Right` steps from the root. JavaScript object identity (`!==`) becomes path equality.
- A `Canvas` is only its width and height.
- Modules:
  - `Paths`: paths, slot indices and `2^n`.
  - `Levels`: `toArray`, `height`, `width`.
  - `Layout`: radius, spacings, `drawNodes`, `draw`.
  - `Geometry`: what a drawn tree looks like.
  - `Selection`: `search`, `updateSelectedNode`.
  - `Insertion`: `insert`.

Each operation is proved equal to, or consistent with, an independent reference.

- The levels of `toArray` are compared with `Slots(t, i)`. Slot `j` of level `i` is where the path reading `j` in binary, most significant step first, leads.
- Positions are compared with closed forms:
  - `SlotX(W, d, j) = W (2j + 1) / 2^(d+1)` horizontally;
  - `LevelY = radius + 10 + d · (H / height)` vertically.
- `search` is compared with the first hit in a pre-order listing of all paths.
- `height` is compared with the structural height of the tree.

A drawn tree satisfies `LaidOut`: every node carries its distance from the root as its depth and sits at its slot's closed-form position. From `LaidOut` the project proves the following:

- nodes of one level are evenly spaced;
- every parent is centred over its two child slots;
- children sit one level spacing lower;
- with the radius `draw` computes, on a canvas of positive width and height, no two circles touch;
- `draw` is idempotent;
- after a draw on a canvas of positive width and height, a click on a node's centre selects exactly that node.

## Model

| member | source | states |
|---|---|---|
| `TreeNodes.NewNode` | static/js/tree/tree_node.js:14-21 | a new node holds the value at (0, 0) with depth 0 and no children, so it is a leaf, of size and height one |
| `TreeNodes.IsLeafNode` | static/js/tree/tree_node.js:26-28 | the definition is the model (no left and no right child); `LeafIffAlone` characterises it by node count and height |
| `TreeNodes.LeafIffAlone` | static/js/tree/tree_node.js:26-28 | a node is a leaf exactly when it has no child, i.e. when its subtree has one node, and exactly when that subtree has height one |
| `TreeNodes.SetPos` | static/js/tree/tree_node.js:30-33 | `setPos` gives the node the new coordinates and keeps its value, children and depth |
| `TreeNodes.SetPosLastWins` | static/js/tree/tree_node.js:30-33 | only the last `setPos` is visible; re-setting the current position is a no-op; the shape never changes |
| `BinaryTrees.NewEngine` | static/js/tree/binary_tree.js:29-37 | a new engine selects the root it was given (nothing when there is none), and the radius starts at 0 |
| `Insertion.Insert` | static/js/tree/binary_tree.js:44-57 | fails, with the side given, exactly when the tree is non-empty and the side is neither "left" nor "right"; otherwise the result's selection is a node of the tree, it holds a fresh leaf with the inserted value, and the radius is unchanged |
| `Insertion.InsertIntoEmpty` | static/js/tree/binary_tree.js:47-48 | into an empty tree the new node becomes the root and the selection, whatever the side |
| `Insertion.InsertAtSelection` | static/js/tree/binary_tree.js:49-56 | the new leaf replaces the child slot of the selected node on the chosen side, dropping the subtree that was there, and becomes the selection; nothing below it survives; every node elsewhere keeps its place, value, position and depth; the node count changes by one minus the dropped subtree's size |
| `Insertion.InsertRejectsSide` | static/js/tree/binary_tree.js:53-54 | on a non-empty tree any other side raises the invalid-side error naming that side |
| `Insertion.InsertSequence` | static/js/tree/binary_tree.js:44-57 | "x" into an empty tree, "y" to its right, then "z" to the left of "y" give the expected tree and selections, and a following "up" is rejected |
| `Insertion.SetChild` | static/js/tree/binary_tree.js:49-52 | the assignment `selectedNode.left/right = newNode` along the selection path; its effect is stated by `SetChildBelow` and `SetChildElsewhere` |
| `Insertion.SetChildBelow` | static/js/tree/binary_tree.js:49-52 | after assigning the child, the walk below the replaced slot is the walk into the new subtree |
| `Insertion.SetChildElsewhere` | static/js/tree/binary_tree.js:49-52 | assigning a child leaves every node outside the replaced slot as it was |
| `Levels.Walk` | static/js/tree/binary_tree.js:103-123 | the while loop emits exactly the reference levels: all `height` of them when started on a non-empty tree; nothing for an empty tree or an emptied level |
| `Levels.Kids` | static/js/tree/binary_tree.js:105-113 | the definition is the model: a node contributes its two children, a placeholder two `null`s; `ExpandSlots` proves the expansion equal to the next reference level |
| `Levels.Expand` | static/js/tree/binary_tree.js:104-114 | `nextLevel` is twice as long as the level; `ExpandSlots` proves it is the next reference level |
| `Levels.StampDepths` | static/js/tree/binary_tree.js:106-107 | stamping keeps the shape and values of the tree; `ToArrayStampsDepths` proves each node gets its distance from the root |
| `Levels.ToArray` | static/js/tree/binary_tree.js:99-125 | `toArray` keeps the tree's shape and values, emits `height` levels, and level `i` is reference level `i` of the stamped tree |
| `Levels.ExpandSlots` | static/js/tree/binary_tree.js:104-114 | the `forEach` that builds `nextLevel` from the reference level `i` produces exactly reference level `i + 1` |
| `Levels.SlotsHaveRealIff` | static/js/tree/binary_tree.js:116-121 | a level has a real node (the `some` test) exactly when it lies above the tree's height, so the loop stops right after the last real level |
| `Levels.ToArrayStampsDepths` | static/js/tree/binary_tree.js:106-107 | every real node is stamped with its distance from the root, and its position is untouched |
| `Levels.ToArrayLevelSizes` | static/js/tree/binary_tree.js:99-125 | no levels exactly for the empty tree; level 0 is the root alone; level `i` has `2^i` slots, twice the one before; every emitted level holds a real node |
| `Levels.ToArrayPlacesEveryNode` | static/js/tree/binary_tree.js:99-125 | every node appears, at level `|p|` and slot `Index(p)` of its path `p`, and a slot is a real node exactly when its path leads to one |
| `Levels.ToArrayCountsEveryNode` | static/js/tree/binary_tree.js:99-125 | the real slots over all levels number exactly the nodes of the tree, so none is omitted or repeated |
| `Levels.Dfs` | static/js/tree/binary_tree.js:82-89 | the definition is the model of the closure-updating `dfs`; `DfsMax` characterises it against the structural height |
| `Levels.HeightByDfs` | static/js/tree/binary_tree.js:79-93 | the definition is the model of the `height` getter; `HeightByDfsIsHeight` proves it is the structural height |
| `Levels.DfsMax` | static/js/tree/binary_tree.js:82-89 | the inner `dfs` leaves `maxHeight` at the larger of its old value and the current depth plus the subtree's height |
| `Levels.HeightByDfsIsHeight` | static/js/tree/binary_tree.js:79-93 | the `height` getter is the structural height (0 for the empty tree) and equals the number of levels `toArray` emits |
| `Levels.MaxLength` | static/js/tree/binary_tree.js:73 | the maximum is absent (`-Infinity`) exactly for no levels; otherwise it bounds every length and is attained |
| `Levels.Width` | static/js/tree/binary_tree.js:71-75 | `width` is absent exactly for the empty tree; otherwise it is `2^(height-1)`, the length of the deepest level |
| `Layout.NodeRadius` | static/js/tree/binary_tree.js:62-67 | the radius is the scale factor 0.075 times the smaller of the width and height factors: no larger than either, equal to one |
| `Layout.CalculateNodeRadius` | static/js/tree/binary_tree.js:62-67 | on a non-empty tree the radius is `0.075 · min(W / 2^(h-1), H / h)` for the structural height `h` |
| `Layout.ComputeSpacings` | static/js/tree/binary_tree.js:241-267 | horizontal spacing times the deepest level's slot count is the canvas width; vertical spacing times the height is the canvas height; the top level lands at `radius + 10`; the deepest row's outer edges fall on 0 and the canvas width |
| `Layout.SpacingFactor` | static/js/tree/binary_tree.js:258-259 | the centring factor is half the slot distance from first to last slot, for even and odd counts alike |
| `Layout.DeepestRowCentred` | static/js/tree/binary_tree.js:250-262 | the deepest row's mean x is the canvas centre |
| `Layout.Row` | static/js/tree/binary_tree.js:285-289 | every reversed level gets one position per slot, placeholders included |
| `Layout.NodePositions` | static/js/tree/binary_tree.js:281-300 | the loop yields one row per level, each as long as its level |
| `Layout.DeepestSlotX` | static/js/tree/binary_tree.js:287-288 | deepest slot `j` at `startX + horizontal · j` is the closed-form `SlotX(W, h-1, j)` |
| `Layout.MidpointSlotX` | static/js/tree/binary_tree.js:289 | the midpoint of slots `2j` and `2j+1` one level down is slot `j`'s closed-form position |
| `Layout.RowY` | static/js/tree/binary_tree.js:282 | reversed level `i` lies at `startY - vertical · i`, the closed-form height of level `h-1-i` |
| `Layout.RowEntrySolved` | static/js/tree/binary_tree.js:285-298 | given solved positions below, each newly computed position is its slot's closed form |
| `Layout.NodePositionsSolved` | static/js/tree/binary_tree.js:281-300 | the bottom-up loop computes every slot's closed-form position |
| `Layout.PlaceAt` | static/js/tree/binary_tree.js:292-296 | each real node takes the position computed for its slot and keeps its depth |
| `Layout.Place` | static/js/tree/binary_tree.js:292-296 | `setPos` on every real node keeps the shape and values of the tree; `PlaceAt` proves where each node lands |
| `Layout.SlotRows` | static/js/tree/binary_tree.js:275-300 | the reversed, positioned and re-reversed rows hold `2^k` positions at level `k` |
| `Layout.SlotPositionsSolved` | static/js/tree/binary_tree.js:273-301 | `drawNodes`' position for slot `j` of level `d` is `(SlotX(W, d, j), LevelY(d))` |
| `Layout.DrawNodes` | static/js/tree/binary_tree.js:273-301 | drawing keeps the shape and values of the tree |
| `Layout.DrawNodesLaysOut` | static/js/tree/binary_tree.js:273-301 | after `drawNodes` every node has its depth stamped and sits at its slot's closed-form position |
| `Layout.Draw` | static/js/tree/binary_tree.js:174-183 | an empty tree is left alone; drawing never changes the selection or the shape |
| `Layout.DrawLaysOut` | static/js/tree/binary_tree.js:174-183 | `draw` on a non-empty tree lays it out with the radius `0.075 · min(W / 2^(h-1), H / h)` |
| `Geometry.SameLevelSpacing` | static/js/tree/binary_tree.js:281-289 | on one level, nodes are a whole number of slot widths `W / 2^d` apart and share a height |
| `Geometry.LevelSpacing` | static/js/tree/binary_tree.js:282 | vertically, nodes are a whole number of level spacings `H / h` apart, one per level |
| `Geometry.ParentCentred` | static/js/tree/binary_tree.js:285-289 | a node sits midway between its two child slots, and between its two children when both exist |
| `Geometry.ChildOneRowDown` | static/js/tree/binary_tree.js:282 | a child sits exactly one level spacing below its parent |
| `Geometry.SameLevelApart` | static/js/tree/binary_tree.js:285-289 | two distinct nodes of one level are at least a slot width apart horizontally |
| `Geometry.OtherLevelApart` | static/js/tree/binary_tree.js:282 | nodes of different levels are at least a level spacing apart vertically |
| `Geometry.NoOverlap` | static/js/tree/binary_tree.js:62-67 | with the radius `draw` computes on a canvas with an area, any two distinct nodes are more than two radii apart: no circles touch |
| `Geometry.LaidOutUnique` | static/js/tree/binary_tree.js:273-301 | a laid-out tree is determined by its shape, canvas and radius |
| `Geometry.RadiusDependsOnShape` | static/js/tree/binary_tree.js:62-67 | the radius depends only on the tree's shape, not on positions or depths |
| `Geometry.DrawIdempotent` | static/js/tree/binary_tree.js:174-183 | redrawing a drawn engine changes nothing |
| `Selection.Search` | static/js/tree/binary_tree.js:141-150 | what `search` returns is a node within the radius of the click |
| `Selection.Hit` | static/js/tree/binary_tree.js:144-147 | the definition is the model of the `dist <= radius` test, on squared distances; `SearchMissesIffNoHit` and `OnlyCentreHit` use it |
| `Selection.SearchIsFirstHit` | static/js/tree/binary_tree.js:141-150 | `search` returns the first node, in pre-order (node, left, right), that the click hits |
| `Selection.SearchMissesIffNoHit` | static/js/tree/binary_tree.js:141-150 | `search` returns `null` exactly when no node is within the radius of the click |
| `Selection.SearchFirstInPreorder` | static/js/tree/binary_tree.js:141-150 | the found node is hit and every node before it in pre-order is missed |
| `Selection.PreorderIsEveryNode` | static/js/tree/binary_tree.js:149 | the pre-order visit reaches exactly the nodes of the tree |
| `Selection.Report` | static/js/tree/binary_tree.js:159-161 | the definition is the model of the callback's three arguments; `ClickNoticeReports` states what they are after a click |
| `Selection.UpdateSelectedNode` | static/js/tree/binary_tree.js:138-164 | the new selection is the search result; the callback fires exactly when it differs from the previous selection, and otherwise the engine is unchanged (the redraw is stated in `ClickRedraws`) |
| `Selection.ClickRedraws` | static/js/tree/binary_tree.js:157-158 | a click that changes the selection redraws: the result is laid out, with the radius recomputed as `0.075 · min(W / 2^(h-1), H / h)` and the shape kept |
| `Selection.ClickKeepsValid` | static/js/tree/binary_tree.js:152-162 | after a click the selection is still a node of the tree and the shape is unchanged |
| `Selection.ClickNoticeReports` | static/js/tree/binary_tree.js:157-161 | the callback receives the selected node as just redrawn, "Yes" exactly when it is the root, and its depth; on a miss it receives `null`, "No" and "-" |
| `Selection.DrawIgnoresSelection` | static/js/tree/binary_tree.js:174-183 | drawing does not depend on the selection |
| `Selection.RepeatedClickIsQuiet` | static/js/tree/binary_tree.js:152-162 | on a drawn tree, a second click on the same spot neither redraws nor notifies |
| `Selection.OnlyCentreHit` | static/js/tree/binary_tree.js:141-150 | on a laid-out tree with `draw`'s radius, a node's centre hits that node and no other |
| `Selection.ClickAtCentreSelects` | static/js/tree/binary_tree.js:138-164 | after a draw on a canvas with an area, a click on a node's centre selects exactly that node |

## Left out

- Canvas output is not modelled: `clearRect`, `drawNode` (arc, font size, text, the red highlight) and `connectNode` (the `atan2`/`cos`/`sin` line ends). They only paint and change no state. `draw` and `drawNodes` are modelled without them.
- The hit test compares squared distances instead of `Math.sqrt(dx² + dy²) <= radius`. With a non-negative radius the two agree exactly on reals. Floating-point rounding is not modelled: coordinates are mathematical reals.
- `console.log`/`console.warn` and the default `onSelectedNodeChanged` stub are left out. The callback's arguments are the `Notice` that `UpdateSelectedNode` returns.
- Binding `canvas.onclick` in the constructor is left out. A click is a call of `UpdateSelectedNode` with the pointer's offset.
- `static/js/canvas.js`, the older `static/js/tree_node.js` and `binary_tree/views.py` are not part of this model. They set up the page and serve it.
- `Insertion.Insert`: on a non-empty tree with no selection, the source dereferences `null` and throws. The model requires a selection for "left" and "right" instead of modelling that crash.
- `Insertion.Insert`: the side is typed as a string and compared with string equality. JavaScript's coercing `==` would also accept a non-string that converts to "left" or "right"; that coercion is not modelled.
- `Layout.CalculateNodeRadius`: on an empty tree the source computes `-0` or `NaN` from `-Infinity` and `0`. It is only called behind `draw`'s empty-tree guard, so the model requires a non-empty tree. `Layout.ComputeSpacings` has the same requirement for the same reason.
- `Levels.ToArray`: level `i` has `2^i` slots, and the source allocates all of them, plus one doubled all-null level before the loop stops. Sequences here are unbounded, so the `RangeError` past JavaScript's array-length limit of `2^32 - 1` (from height 31 on) and running out of memory on tall trees are not modelled; the same holds for `Levels.Width`, `Layout.Draw` and a click that redraws.
- `Levels.Width`: the getter calls `toArray`, which also stamps every node's depth in the live tree. The model returns only the width and drops that stamping. Inside `draw` it makes no difference, because `drawNodes` runs `toArray` right afterwards and stamps the same depths again (`DrawNodesLaysOut` states the depths).
- `Levels.Width`: the `-Infinity` of an empty `Math.max()` is represented by `None`.
- `Levels.ToArray` stamps depths in one structural pass before the levels are collected. The JavaScript stamps each node as the loop visits it. Both end in the same state, because each node is visited once, at level `|p|`.
- `Insertion.Insert`: a rejected insert returns the error and no engine. The caller's engine is unchanged by construction. The source also has the selection unchanged, since it throws before the last assignment.
- Mutation and aliasing of the JavaScript objects are replaced by values. A tree node is owned by exactly one parent, as in every tree the engine builds.

=== FILE: engine.dfy ===
/** The state of a `BinaryTree` of static/js/tree/binary_tree.js and the surface
    it draws on.  The canvas and its 2D context are not modelled beyond their
    size; the selected node is the path that leads to it. */
module BinaryTrees {
  import opened Wrappers
  import opened TreeNodes
  import opened Paths

  /** Size of the drawing surface; a canvas' width and height are unsigned integers. */
  datatype Canvas = Canvas(width: nat, height: nat)

  /** `root`, `selectedNode` and `radius` of a BinaryTree. */
  datatype Engine<V> = Engine(root: Tree<V>, selected: Option<Path>, radius: real)

  /** The selection, when present, is a node of the tree. */
  predicate Valid<V>(e: Engine<V>)
  {
    e.selected.Some? ==> ValidPath(e.root, e.selected.value)
  }

  /** `new BinaryTree(canvas, context, root)`: the root (or nothing) is
      selected and the radius starts at 0. */
  function NewEngine<V>(root: Tree<V>): (e: Engine<V>)
    ensures Valid(e) && e.root == root && e.radius == 0.0
    ensures e.selected.Some? <==> root.Node?
    ensures e.selected.Some? ==> Follow(root, e.selected.value) == root
  {
    Engine(root, if root.Nil? then None else Some([]), 0.0)
  }
}

=== FILE: geometry.dfy ===
/** What the layout of static/js/tree/binary_tree.js guarantees once `draw`
    has run: levels spread evenly, parents centred over their child slots,
    circles that never overlap, and a redraw that changes nothing. */
module Geometry {
  import opened TreeNodes
  import opened Paths
  import opened Levels
  import opened BinaryTrees
  import opened Layout

  function Sq(a: real): real
  {
    a * a
  }

  /** Squared distance between two points. */
  function Dist2(x1: real, y1: real, x2: real, y2: real): real
  {
    Sq(x1 - x2) + Sq(y1 - y2)
  }

  /** The width of one slot of level `d` on a canvas `w` wide. */
  function SlotStep(w: real, d: nat): real
  {
    w / Pow2(d) as real
  }

  /** `k` steps of length `step`, signed. */
  function Steps(k: int, step: real): real
  {
    k as real * step
  }

  /** The vertical spacing between two levels of a tree of height `h`. */
  function RowStep(canvas: Canvas, h: nat): real
    requires h >= 1
  {
    canvas.height as real / h as real
  }

  // ---- arithmetic ----

  lemma SlotDifference(w: real, d: nat, a: nat, b: nat)
    ensures SlotX(w, d, a) - SlotX(w, d, b) == Steps(a - b, SlotStep(w, d))
  {
    var q := Pow2(d) as real;
    var ra, rb := a as real, b as real;
    calc {
      SlotX(w, d, a) - SlotX(w, d, b);
    == { assert Pow2(d + 1) as real == 2.0 * q; }
      w * (2.0 * ra + 1.0) / (2.0 * q) - w * (2.0 * rb + 1.0) / (2.0 * q);
    == { SlotDifferenceArith(w, ra, rb, q); }
      (ra - rb) * (w / q);
    == { assert (a - b) as real == ra - rb; }
      Steps(a - b, SlotStep(w, d));
    }
  }

  lemma SlotDifferenceArith(w: real, a: real, b: real, q: real)
    requires q > 0.0
    ensures w * (2.0 * a + 1.0) / (2.0 * q) - w * (2.0 * b + 1.0) / (2.0 * q) == (a - b) * (w / q)
  {
  }

  lemma LevelYDifference(radius: real, canvas: Canvas, h: nat, d1: nat, d2: nat)
    requires h >= 1
    ensures LevelY(radius, canvas, h, d1) - LevelY(radius, canvas, h, d2)
         == Steps(d1 - d2, RowStep(canvas, h))
  {
    Distribute(d1 as real, d2 as real, canvas.height as real / h as real);
  }

  lemma Distribute(a: real, b: real, s: real)
    ensures a * s - b * s == (a - b) * s
  {
  }

  /** A non-zero whole multiple of a step is at least the step away from 0. */
  lemma MultipleAtLeastStep(k: int, step: real, v: real)
    requires k != 0 && step >= 0.0 && v == Steps(k, step)
    ensures Sq(v) >= Sq(step)
  {
    var kr := k as real;
    assert kr * kr >= 1.0 by {
      if k > 0 { assert kr >= 1.0; } else { assert kr <= -1.0; }
    }
    assert Sq(v) == (kr * kr) * (step * step);
  }

  lemma SquareMonotone(a: real, b: real)
    requires 0.0 <= a <= b
    ensures Sq(a) <= Sq(b)
  {
    assert a * a <= a * b <= b * b;
  }

  /** A point is within any non-negative radius of itself. */
  lemma CentreWithin(x: real, y: real, radius: real)
    requires radius >= 0.0
    ensures Dist2(x, y, x, y) <= Sq(radius)
  {
    assert Dist2(x, y, x, y) == 0.0;
    SquareMonotone(0.0, radius);
  }

  /** A squared distance beyond two radii is beyond one radius. */
  lemma BeyondDiameter(d2: real, radius: real)
    requires radius >= 0.0 && d2 > Sq(2.0 * radius)
    ensures d2 > Sq(radius)
  {
    SquareMonotone(radius, 2.0 * radius);
  }

  /** The radius `draw` computes for a canvas with an area is positive. */
  lemma RadiusPositive(canvas: Canvas, h: nat, radius: real)
    requires canvas.width > 0 && canvas.height > 0 && h >= 1
    requires radius == ScaleFactor * Min(canvas.width as real / Pow2(h - 1) as real,
                                         canvas.height as real / h as real)
    ensures radius > 0.0
  {
    StepsBoundMin(canvas, h, 0);
  }

  lemma SquareStrict(a: real, b: real)
    requires 0.0 <= a < b
    ensures Sq(a) < Sq(b)
  {
    var u, v := b - a, b + a;
    assert u > 0.0 && v > 0.0;
    assert u * v > 0.0;
    assert Sq(b) - Sq(a) == u * v;
  }

  lemma DivideByLarger(w: real, a: nat, b: nat)
    requires w >= 0.0 && 1 <= a <= b
    ensures w / b as real <= w / a as real
  {
    assert w / b as real * b as real == w;
    assert w / a as real * a as real == w;
  }

  lemma PositiveRatio(a: real, b: real)
    requires a > 0.0 && b > 0.0
    ensures a / b > 0.0
  {
  }

  /** The coordinates `a` and `b` differ by at least `step` either way. */
  ghost predicate FarApart(a: real, b: real, step: real)
  {
    Sq(a - b) >= Sq(step)
  }

  /** If one coordinate differs by at least `step`, and `step` is at least
      `m`, the squared distance beats the squared diameter of circles of
      radius `ScaleFactor * m`. */
  lemma Separated(x1: real, y1: real, x2: real, y2: real, step: real, m: real, radius: real)
    requires 0.0 < m <= step && radius == ScaleFactor * m
    requires FarApart(x1, x2, step) || FarApart(y1, y2, step)
    ensures Dist2(x1, y1, x2, y2) > Sq(2.0 * radius)
  {
    var dx, dy := x1 - x2, y1 - y2;
    SquareStrict(2.0 * radius, m);
    SquareMonotone(m, step);
    assert Sq(dx) >= 0.0 && Sq(dy) >= 0.0;
  }

  /** The radius bound: the smaller of the deepest slot width and the level
      spacing, which no slot width and no level spacing undercuts. */
  lemma StepsBoundMin(canvas: Canvas, h: nat, d: nat)
    requires canvas.width > 0 && canvas.height > 0 && d < h
    ensures 0.0 < Min(SlotStep(canvas.width as real, h - 1), RowStep(canvas, h))
    ensures Min(SlotStep(canvas.width as real, h - 1), RowStep(canvas, h)) <= SlotStep(canvas.width as real, d)
    ensures Min(SlotStep(canvas.width as real, h - 1), RowStep(canvas, h)) <= RowStep(canvas, h)
  {
    var w := canvas.width as real;
    PositiveRatio(w, Pow2(h - 1) as real);
    PositiveRatio(canvas.height as real, h as real);
    Pow2Monotone(d, h - 1);
    DivideByLarger(w, Pow2(d), Pow2(h - 1));
  }

  // ---- a laid-out tree ----

  lemma ColumnAt<V>(t: Tree<V>, w: real, d: nat, p: Path)
    requires ColumnsPlaced(t, w) && ValidPath(t, p) && |p| == d
    ensures Follow(t, p).x == SlotX(w, d, Index(p))
  {
  }

  lemma RowAt<V>(t: Tree<V>, canvas: Canvas, radius: real, p: Path)
    requires Height(t) >= 1 && RowsPlaced(t, canvas, radius) && ValidPath(t, p)
    ensures Follow(t, p).y == LevelY(radius, canvas, Height(t), |p|)
  {
  }

  /** Column spacing from the column half of `LaidOut` alone; callers that
      need no rows do not carry the row facts. */
  lemma ColumnSpacing<V>(t: Tree<V>, w: real, d: nat, p: Path, q: Path)
    requires ColumnsPlaced(t, w)
    requires ValidPath(t, p) && ValidPath(t, q) && |p| == d && |q| == d
    ensures Follow(t, q).x - Follow(t, p).x == Steps(Index(q) - Index(p), SlotStep(w, d))
  {
    ColumnAt(t, w, d, p);
    ColumnAt(t, w, d, q);
    NodesInSlots(t, w, d, p, q);
  }

  /** The same spacing from the two nodes' x facts only, with no quantifier in
      scope: the slot arithmetic of `SlotDifference` is nonlinear and stays
      cheap only away from `ColumnsPlaced`. */
  lemma NodesInSlots<V>(t: Tree<V>, w: real, d: nat, p: Path, q: Path)
    requires ValidPath(t, p) && ValidPath(t, q)
    requires Follow(t, p).x == SlotX(w, d, Index(p))
    requires Follow(t, q).x == SlotX(w, d, Index(q))
    ensures Follow(t, q).x - Follow(t, p).x == Steps(Index(q) - Index(p), SlotStep(w, d))
  {
    SlotDifference(w, d, Index(q), Index(p));
  }

  /** Row spacing from the row half of `LaidOut` alone, so that
      `ChildOneRowDown` and `LevelSpacing` need not unfold the columns;
      `LevelSpacing` states it for a laid-out tree. */
  lemma RowSpacing<V>(t: Tree<V>, canvas: Canvas, radius: real, p: Path, q: Path)
    requires Height(t) >= 1 && RowsPlaced(t, canvas, radius)
    requires ValidPath(t, p) && ValidPath(t, q)
    ensures Follow(t, q).y - Follow(t, p).y == Steps(|q| - |p|, RowStep(canvas, Height(t)))
  {
    RowAt(t, canvas, radius, p);
    RowAt(t, canvas, radius, q);
    LevelYDifference(radius, canvas, Height(t), |q|, |p|);
  }

  /** Nodes of one level are spread evenly, `W / 2^d` per slot, and share a
      height. */
  lemma SameLevelSpacing<V>(t: Tree<V>, canvas: Canvas, radius: real, p: Path, q: Path)
    requires LaidOut(t, canvas, radius)
    requires ValidPath(t, p) && ValidPath(t, q) && |p| == |q|
    ensures Follow(t, q).x - Follow(t, p).x == Steps(Index(q) - Index(p), SlotStep(canvas.width as real, |p|))
    ensures Follow(t, q).y == Follow(t, p).y
  {
    ColumnSpacing(t, canvas.width as real, |p|, p, q);
    RowAt(t, canvas, radius, p);
    RowAt(t, canvas, radius, q);
  }

  /** Nodes of different levels are a whole number of level spacings apart
      vertically. */
  lemma LevelSpacing<V>(t: Tree<V>, canvas: Canvas, radius: real, p: Path, q: Path)
    requires LaidOut(t, canvas, radius)
    requires ValidPath(t, p) && ValidPath(t, q)
    ensures Follow(t, q).y - Follow(t, p).y == Steps(|q| - |p|, RowStep(canvas, Height(t)))
  {
    RowSpacing(t, canvas, radius, p, q);
  }

  /** The x part of `ParentCentred`, on the columns alone. */
  lemma ColumnCentred<V>(t: Tree<V>, w: real, p: Path)
    requires ColumnsPlaced(t, w) && ValidPath(t, p)
    ensures Index(p + [Left]) == 2 * Index(p) && Index(p + [Right]) == 2 * Index(p) + 1
    ensures Follow(t, p).x == (SlotX(w, |p| + 1, Index(p + [Left])) + SlotX(w, |p| + 1, Index(p + [Right]))) / 2.0
  {
    IndexSnoc(p, Left);
    IndexSnoc(p, Right);
    ColumnAt(t, w, |p|, p);
    MidpointSlotX(w, |p|, Index(p), Index(p + [Left]), Index(p + [Right]));
  }

  /** A node sits at the midpoint of its two child slots (a missing child's
      placeholder slot counts with its own position). */
  lemma ParentCentred<V>(t: Tree<V>, canvas: Canvas, radius: real, p: Path)
    requires LaidOut(t, canvas, radius) && ValidPath(t, p)
    ensures Index(p + [Left]) == 2 * Index(p) && Index(p + [Right]) == 2 * Index(p) + 1
    ensures Follow(t, p).x == (SlotX(canvas.width as real, |p| + 1, Index(p + [Left]))
                             + SlotX(canvas.width as real, |p| + 1, Index(p + [Right]))) / 2.0
    ensures ValidPath(t, p + [Left]) && ValidPath(t, p + [Right]) ==>
      Follow(t, p).x == (Follow(t, p + [Left]).x + Follow(t, p + [Right]).x) / 2.0
  {
    var w := canvas.width as real;
    ColumnCentred(t, w, p);
    if ValidPath(t, p + [Left]) && ValidPath(t, p + [Right]) {
      ColumnAt(t, w, |p| + 1, p + [Left]);
      ColumnAt(t, w, |p| + 1, p + [Right]);
    }
  }

  /** A child sits one level spacing below its parent. */
  lemma ChildOneRowDown<V>(t: Tree<V>, canvas: Canvas, radius: real, p: Path, s: Side)
    requires LaidOut(t, canvas, radius) && ValidPath(t, p + [s])
    ensures ValidPath(t, p) && Height(t) >= 1
    ensures Follow(t, p + [s]).y - Follow(t, p).y == RowStep(canvas, Height(t))
  {
    FollowSnoc(t, p, s);
    RowSpacing(t, canvas, radius, p, p + [s]);
    assert |p + [s]| - |p| == 1;
    assert Steps(1, RowStep(canvas, Height(t))) == RowStep(canvas, Height(t));
  }

  /** A non-zero whole number of slot widths is at least one slot width,
      either way. */
  lemma SlotsApart(w: real, d: nat, i: nat, j: nat, xi: real, xj: real)
    requires w >= 0.0 && i != j
    requires xi - xj == Steps(i - j, SlotStep(w, d))
    ensures Sq(xi - xj) >= Sq(SlotStep(w, d))
  {
    assert SlotStep(w, d) >= 0.0 by {
      PositiveRatio(w + 1.0, Pow2(d) as real);
      assert w / Pow2(d) as real * Pow2(d) as real == w;
    }
    MultipleAtLeastStep(i - j, SlotStep(w, d), xi - xj);
  }

  /** Two distinct slots of one level are at least a slot width apart. */
  lemma DistinctSlotsApart(w: real, d: nat, i: nat, j: nat, xi: real, xj: real)
    requires w >= 0.0 && i != j
    requires xi == SlotX(w, d, i) && xj == SlotX(w, d, j)
    ensures FarApart(xi, xj, SlotStep(w, d))
  {
    SlotDifference(w, d, i, j);
    SlotsApart(w, d, i, j, xi, xj);
  }

  /** Two distinct nodes of one level are at least a slot width apart. */
  lemma SameLevelApart<V>(t: Tree<V>, w: real, p: Path, q: Path)
    requires ColumnsPlaced(t, w)
    requires ValidPath(t, p) && ValidPath(t, q) && |p| == |q| && p != q
    requires w >= 0.0
    ensures FarApart(Follow(t, p).x, Follow(t, q).x, SlotStep(w, |p|))
  {
    IndexInjective(p, q);
    ColumnAt(t, w, |p|, p);
    ColumnAt(t, w, |p|, q);
    DistinctSlotsApart(w, |p|, Index(p), Index(q), Follow(t, p).x, Follow(t, q).x);
  }

  /** Two nodes of different levels are at least a level spacing apart. */
  lemma OtherLevelApart<V>(t: Tree<V>, canvas: Canvas, radius: real, p: Path, q: Path)
    requires Height(t) >= 1 && RowsPlaced(t, canvas, radius)
    requires ValidPath(t, p) && ValidPath(t, q) && |p| != |q|
    ensures FarApart(Follow(t, p).y, Follow(t, q).y, RowStep(canvas, Height(t)))
  {
    RowAt(t, canvas, radius, p);
    RowAt(t, canvas, radius, q);
    DistinctRowsApart(radius, canvas, Height(t), |p|, |q|, Follow(t, p).y, Follow(t, q).y);
  }

  /** Two distinct levels are at least a level spacing apart. */
  lemma DistinctRowsApart(radius: real, canvas: Canvas, h: nat, d1: nat, d2: nat, y1: real, y2: real)
    requires h >= 1 && d1 != d2
    requires y1 == LevelY(radius, canvas, h, d1) && y2 == LevelY(radius, canvas, h, d2)
    ensures FarApart(y1, y2, RowStep(canvas, h))
  {
    LevelYDifference(radius, canvas, h, d1, d2);
    MultipleAtLeastStep(d1 - d2, RowStep(canvas, h), y1 - y2);
  }

  /** Two distinct nodes of a laid-out tree are more than two radii apart: no
      two circles touch, whatever the shape of the tree, as long as the canvas
      has an area. */
  lemma NoOverlap<V>(t: Tree<V>, canvas: Canvas, radius: real, p: Path, q: Path)
    requires LaidOut(t, canvas, radius)
    requires canvas.width > 0 && canvas.height > 0
    requires radius == ScaleFactor * Min(canvas.width as real / Pow2(Height(t) - 1) as real,
                                         canvas.height as real / Height(t) as real)
    requires ValidPath(t, p) && ValidPath(t, q) && p != q
    ensures Dist2(Follow(t, p).x, Follow(t, p).y, Follow(t, q).x, Follow(t, q).y) > Sq(2.0 * radius)
  {
    var h := Height(t);
    var w := canvas.width as real;
    var m := Min(SlotStep(w, h - 1), RowStep(canvas, h));
    var step := if |p| == |q| then SlotStep(w, |p|) else RowStep(canvas, h);
    assert 0.0 < m <= step by {
      ValidPathBelowHeight(t, p);
      StepsBoundMin(canvas, h, |p|);
    }
    assert FarApart(Follow(t, p).x, Follow(t, q).x, step) || FarApart(Follow(t, p).y, Follow(t, q).y, step) by {
      if |p| == |q| {
        SameLevelApart(t, w, p, q);
      } else {
        OtherLevelApart(t, canvas, radius, p, q);
      }
    }
    Separated(Follow(t, p).x, Follow(t, p).y, Follow(t, q).x, Follow(t, q).y, step, m, radius);
  }

  /** A laid-out tree is determined by its shape, canvas and radius. */
  lemma LaidOutUnique<V>(a: Tree<V>, b: Tree<V>, canvas: Canvas, radius: real)
    requires Erase(a) == Erase(b)
    requires LaidOut(a, canvas, radius) && LaidOut(b, canvas, radius)
    ensures a == b
  {
    forall p
      ensures SameNodeAt(a, b, p)
    {
      SameShape(a, b, p);
    }
    TreeExt(a, b);
  }

  /** The radius depends on the shape of the tree only. */
  lemma RadiusDependsOnShape<V>(a: Tree<V>, b: Tree<V>, canvas: Canvas)
    requires a.Node? && Erase(a) == Erase(b)
    ensures b.Node? && CalculateNodeRadius(a, canvas) == CalculateNodeRadius(b, canvas)
  {
    SameShape(a, b, []);
  }

  /** Redrawing changes nothing: `draw` is idempotent. */
  lemma DrawIdempotent<V>(e: Engine<V>, canvas: Canvas)
    ensures Draw(Draw(e, canvas), canvas) == Draw(e, canvas)
  {
    if e.root.Node? {
      var radius := CalculateNodeRadius(e.root, canvas);
      var once := DrawNodes(e.root, radius, canvas);
      assert Draw(e, canvas) == e.(root := once, radius := radius);
      RadiusDependsOnShape(e.root, once, canvas);
      var twice := DrawNodes(once, radius, canvas);
      assert Draw(Draw(e, canvas), canvas) == e.(root := twice, radius := radius);
      DrawNodesLaysOut(e.root, radius, canvas);
      DrawNodesLaysOut(once, radius, canvas);
      LaidOutUnique(once, twice, canvas, radius);
    }
  }
}

=== FILE: insertion.dfy ===
/** `insert` of static/js/tree/binary_tree.js: a new leaf becomes the root of
    an empty tree, or the left or right child of the selected node, and is
    selected. */
module Insertion {
  import opened Wrappers
  import opened TreeNodes
  import opened Paths
  import opened BinaryTrees

  /** The `TypeError` thrown for a side other than "left" or "right". */
  datatype InsertError = InvalidSide(side: string)

  /** The tree with the child on side `s` of the node at `p` replaced by `sub`
      (`selectedNode.left = newNode` or `selectedNode.right = newNode`). */
  function SetChild<V>(t: Tree<V>, p: Path, s: Side, sub: Tree<V>): (r: Tree<V>)
    requires ValidPath(t, p)
    ensures r.Node?
    decreases |p|
  {
    if |p| == 0 then
      if s == Left then t.(left := sub) else t.(right := sub)
    else if p[0] == Left then t.(left := SetChild(t.left, p[1..], s, sub))
    else t.(right := SetChild(t.right, p[1..], s, sub))
  }

  /** `q` starts with `p`. */
  predicate Extends(q: Path, p: Path)
  {
    |p| <= |q| && q[..|p|] == p
  }

  /** One step, then the rest of the prefix. */
  lemma ExtendsCons(q: Path, p: Path)
    requires |q| > 0 && |p| > 0
    ensures Extends(q, p) <==> q[0] == p[0] && Extends(q[1..], p[1..])
  {
    if |p| <= |q| {
      assert q[..|p|] == [q[0]] + q[1..][..|p| - 1];
      assert p == [p[0]] + p[1..];
    }
  }

  /** Below the replaced slot is the new subtree. */
  lemma {:induction false} SetChildBelow<V>(t: Tree<V>, p: Path, s: Side, sub: Tree<V>, q: Path)
    requires ValidPath(t, p) && Extends(q, p + [s])
    ensures Follow(SetChild(t, p, s, sub), q) == Follow(sub, q[|p| + 1..])
    decreases |p|
  {
    var r := SetChild(t, p, s, sub);
    var q' := q[1..];
    assert q == [q[0]] + q';
    FollowCons(r, q[0], q');
    ExtendsCons(q, p + [s]);
    if |p| == 0 {
      assert q[|p| + 1..] == q';
    } else {
      assert (p + [s])[1..] == p[1..] + [s];
      SetChildBelow(Child(t, p[0]), p[1..], s, sub, q');
      assert q'[|p[1..]| + 1..] == q[|p| + 1..];
    }
  }

  /** Every node outside the replaced slot is where it was, with the same
      value, position and depth. */
  lemma {:induction false} SetChildElsewhere<V>(t: Tree<V>, p: Path, s: Side, sub: Tree<V>, q: Path)
    requires ValidPath(t, p) && !Extends(q, p + [s])
    ensures SameNodeAt(SetChild(t, p, s, sub), t, q)
    decreases |p|
  {
    var r := SetChild(t, p, s, sub);
    if |q| > 0 {
      var q' := q[1..];
      assert q == [q[0]] + q';
      FollowCons(r, q[0], q');
      FollowCons(t, q[0], q');
      ExtendsCons(q, p + [s]);
      if |p| > 0 && q[0] == p[0] {
        assert (p + [s])[1..] == p[1..] + [s];
        SetChildElsewhere(Child(t, p[0]), p[1..], s, sub, q');
      }
    }
  }

  /** Replacing a subtree changes the node count by the difference. */
  lemma {:induction false} SetChildSize<V>(t: Tree<V>, p: Path, s: Side, sub: Tree<V>)
    requires ValidPath(t, p)
    ensures Size(SetChild(t, p, s, sub)) == Size(t) - Size(Follow(t, p + [s])) + Size(sub)
    decreases |p|
  {
    FollowSnoc(t, p, s);
    if |p| > 0 {
      SetChildSize(Child(t, p[0]), p[1..], s, sub);
      assert (p + [s])[1..] == p[1..] + [s];
      FollowCons(t, p[0], p[1..] + [s]);
      assert [p[0]] + (p[1..] + [s]) == p + [s];
    }
  }

  /** `insert(value, side)`.  The caller must have a node selected when it
      asks for "left" or "right" on a non-empty tree: the source dereferences
      the selection there without a check. */
  function Insert<V>(e: Engine<V>, value: V, side: string): (r: Result<Engine<V>, InsertError>)
    requires Valid(e)
    requires e.root.Node? && (side == "left" || side == "right") ==> e.selected.Some?
    ensures r.Failure? <==> e.root.Node? && side != "left" && side != "right"
    ensures r.Failure? ==> r.error == InvalidSide(side)
    ensures r.Success? ==> Valid(r.value) && r.value.radius == e.radius
    ensures r.Success? ==>
      r.value.selected.Some? && Follow(r.value.root, r.value.selected.value) == NewNode(value)
  {
    var leaf := NewNode(value);
    if e.root.Nil? then
      Success(e.(root := leaf, selected := Some([])))
    else if side == "left" || side == "right" then
      var p := e.selected.value;
      var s := if side == "left" then Left else Right;
      assert Extends(p + [s], p + [s]);
      SetChildBelow(e.root, p, s, leaf, p + [s]);
      assert (p + [s])[|p| + 1..] == [];
      Success(e.(root := SetChild(e.root, p, s, leaf), selected := Some(p + [s])))
    else
      Failure(InvalidSide(side))
  }

  /** On an empty tree the new node becomes the root and the selection,
      whatever the side, even one that is not "left" or "right". */
  lemma InsertIntoEmpty<V>(e: Engine<V>, value: V, side: string)
    requires Valid(e) && e.root.Nil?
    ensures Insert(e, value, side).Success?
    ensures Insert(e, value, side).value.root == NewNode(value)
    ensures Insert(e, value, side).value.selected == Some([])
  {
  }

  /** On a non-empty tree, "left" or "right" puts the new leaf in that child
      slot of the selected node, dropping whatever subtree was there, selects
      it, and leaves every other node as it was. */
  lemma InsertAtSelection<V>(e: Engine<V>, value: V, side: string, q: Path)
    requires Valid(e) && e.root.Node? && e.selected.Some?
    requires side == "left" || side == "right"
    ensures var p := e.selected.value;
      var s := if side == "left" then Left else Right;
      var r := Insert(e, value, side).value;
      && r.selected == Some(p + [s])
      && Follow(r.root, p + [s]) == NewNode(value)
      && (Extends(q, p + [s]) && |q| > |p| + 1 ==> !ValidPath(r.root, q))
      && (!Extends(q, p + [s]) ==> SameNodeAt(r.root, e.root, q))
      && Size(r.root) == Size(e.root) - Size(Follow(e.root, p + [s])) + 1
  {
    var p := e.selected.value;
    var s := if side == "left" then Left else Right;
    if Extends(q, p + [s]) {
      SetChildBelow(e.root, p, s, NewNode(value), q);
    } else {
      SetChildElsewhere(e.root, p, s, NewNode(value), q);
    }
    assert Extends(p + [s], p + [s]);
    SetChildBelow(e.root, p, s, NewNode(value), p + [s]);
    assert (p + [s])[|p| + 1..] == [];
    SetChildSize(e.root, p, s, NewNode(value));
    if Extends(q, p + [s]) && |q| > |p| + 1 {
      var u := q[|p| + 1..];
      assert u == [u[0]] + u[1..];
    }
  }

  /** A side other than "left" or "right" on a non-empty tree is rejected
      with the side it was given. */
  lemma InsertRejectsSide<V>(e: Engine<V>, value: V, side: string)
    requires Valid(e) && e.root.Node?
    requires side != "left" && side != "right"
    ensures Insert(e, value, side) == Failure(InvalidSide(side))
  {
  }

  /** A sample session: "x" into an empty tree, "y" to its right, "z" to the
      left of "y", and a rejected "up". */
  lemma InsertSequence()
    ensures var e0 := NewEngine<string>(Nil);
      var e1 := Insert(e0, "x", "left").value;
      var e2 := Insert(e1, "y", "right").value;
      var e3 := Insert(e2, "z", "left").value;
      && e1.root == NewNode("x") && e1.selected == Some([])
      && e2.root == Node("x", 0.0, 0.0, Nil, NewNode("y"), 0) && e2.selected == Some([Right])
      && e3.root == Node("x", 0.0, 0.0, Nil, Node("y", 0.0, 0.0, NewNode("z"), Nil, 0), 0)
      && e3.selected == Some([Right, Left])
      && Insert(e3, "w", "up") == Failure(InvalidSide("up"))
  {
    var e0 := NewEngine<string>(Nil);
    var e1 := Insert(e0, "x", "left").value;
    assert e1.selected == Some([]);
    var e2 := Insert(e1, "y", "right").value;
    assert [] + [Right] == [Right];
    assert e2.selected == Some([Right]);
    var e3 := Insert(e2, "z", "left").value;
    assert [Right] + [Left] == [Right, Left];
    assert [Right, Left][1..] == [Left];
  }
}

=== FILE: layout.dfy ===
/** Node radius, spacing and the bottom-up positioning of static/js/tree/binary_tree.js
    (`calculateNodeRadius`, `computeSpacings`, `drawNodes`, `draw`).

    Coordinates are exact reals.  The deepest level's slots are spread evenly
    over the canvas width; every shallower slot, placeholder or not, sits at
    the midpoint of its two child slots; levels step down by a fixed vertical
    spacing.  Solved, slot `j` of level `d` sits at `SlotX(W, d, j) =
    W * (2j + 1) / 2^(d + 1)`: every level is spread evenly and centred. */
module Layout {
  import opened Wrappers
  import opened TreeNodes
  import opened Paths
  import opened Levels
  import opened BinaryTrees

  /** `scaleFactor`: the share of a slot a node's radius may take. */
  const ScaleFactor: real := 0.075

  /** Offset of the root level below the canvas' top edge, beyond the radius. */
  const TopMargin: real := 10.0

  function Min(a: real, b: real): real
  {
    if a < b then a else b
  }

  /** A computed slot position (`{ x, y }`). */
  datatype Pos = Pos(x: real, y: real)

  /** The horizontal position of slot `j` of level `d` on a canvas `w` wide. */
  function SlotX(w: real, d: nat, j: nat): real
  {
    w * (2 * j + 1) as real / Pow2(d + 1) as real
  }

  /** The vertical position of level `d` of a tree of height `h`. */
  function LevelY(radius: real, canvas: Canvas, h: nat, d: nat): real
    requires h >= 1
  {
    radius + TopMargin + d as real * (canvas.height as real / h as real)
  }

  // ---- radius ----

  /** `Math.min(widthFactor, heightFactor) * scaleFactor` for a tree `width`
      slots wide and `height` levels high. */
  function NodeRadius(canvas: Canvas, width: nat, height: nat): (r: real)
    requires width >= 1 && height >= 1
    ensures 0.0 <= r
    ensures r <= ScaleFactor * (canvas.width as real / width as real)
    ensures r <= ScaleFactor * (canvas.height as real / height as real)
    ensures r == ScaleFactor * (canvas.width as real / width as real)
         || r == ScaleFactor * (canvas.height as real / height as real)
  {
    Min(canvas.width as real / width as real, canvas.height as real / height as real) * ScaleFactor
  }

  /** `calculateNodeRadius` on a non-empty tree, from the `width` and `height` getters. */
  function CalculateNodeRadius<V>(t: Tree<V>, canvas: Canvas): (r: real)
    requires t.Node?
    ensures r == ScaleFactor * Min(canvas.width as real / Pow2(Height(t) - 1) as real,
                                   canvas.height as real / Height(t) as real)
  {
    HeightByDfsIsHeight(t);
    NodeRadius(canvas, Width(t).value, HeightByDfs(t))
  }

  // ---- spacings ----

  /** Result of `computeSpacings`. */
  datatype Spacings = Spacings(startX: real, startY: real, horizontal: real, vertical: real)

  /** `computeSpacings`, given the deepest level's slot count, the tree height
      and the radius just computed. */
  function ComputeSpacings(levelWidth: nat, treeHeight: nat, radius: real, canvas: Canvas): (sp: Spacings)
    requires levelWidth >= 1 && treeHeight >= 1
    ensures sp.horizontal * levelWidth as real == canvas.width as real
    ensures sp.vertical * treeHeight as real == canvas.height as real
    ensures sp.startY - sp.vertical * (treeHeight - 1) as real == radius + TopMargin
    ensures treeHeight > 1 || levelWidth == 1 ==>
      && sp.startX - sp.horizontal / 2.0 == 0.0
      && sp.startX + sp.horizontal * (levelWidth - 1) as real + sp.horizontal / 2.0 == canvas.width as real
  {
    var center := canvas.width as real / 2.0;
    var horizontal := canvas.width as real / levelWidth as real;
    var vertical := canvas.height as real / treeHeight as real;
    var factor := (levelWidth / 2) as real - (if levelWidth % 2 == 0 then 0.5 else 0.0);
    var startY := radius + TopMargin + vertical * (treeHeight - 1) as real;
    var startX := center - (if treeHeight > 1 then horizontal * factor else 0.0);
    SpacingFactor(levelWidth);
    Spacings(startX, startY, horizontal, vertical)
  }

  /** The centring factor is half the distance, in slots, from the first to the
      last slot, for even and odd slot counts alike. */
  lemma SpacingFactor(levelWidth: nat)
    requires levelWidth >= 1
    ensures 2.0 * ((levelWidth / 2) as real - (if levelWidth % 2 == 0 then 0.5 else 0.0)) == (levelWidth - 1) as real
  {
  }

  /** The spacing puts the mean of the deepest level's slots at the canvas
      centre, for even and odd slot counts alike. */
  lemma DeepestRowCentred(levelWidth: nat, treeHeight: nat, radius: real, canvas: Canvas)
    requires levelWidth >= 1 && treeHeight >= 1
    requires treeHeight > 1 || levelWidth == 1
    ensures SumX(Row(0, levelWidth, ComputeSpacings(levelWidth, treeHeight, radius, canvas), []))
         == levelWidth as real * (canvas.width as real / 2.0)
  {
    var sp := ComputeSpacings(levelWidth, treeHeight, radius, canvas);
    assert sp.startX == sp.horizontal / 2.0;
    SpreadRowCentred(sp, levelWidth, canvas);
  }

  lemma SpreadRowCentred(sp: Spacings, levelWidth: nat, canvas: Canvas)
    requires levelWidth >= 1
    requires sp.startX == sp.horizontal / 2.0 && sp.horizontal * levelWidth as real == canvas.width as real
    ensures SumX(Row(0, levelWidth, sp, [])) == levelWidth as real * (canvas.width as real / 2.0)
  {
    var row := Row(0, levelWidth, sp, []);
    assert forall j | 0 <= j < |row| :: row[j].x == sp.startX + sp.horizontal * j as real;
    EvenRowSum(row, sp.startX, sp.horizontal, canvas.width as real);
  }

  /** Slots spaced `step` apart starting half a step from 0, covering `w`, sum
      to `|row| * w / 2`. */
  lemma EvenRowSum(row: seq<Pos>, start: real, step: real, w: real)
    requires forall j | 0 <= j < |row| :: row[j].x == start + step * j as real
    requires start == step / 2.0 && step * |row| as real == w
    ensures SumX(row) == |row| as real * (w / 2.0)
  {
    SumArith(row, start, step);
    CentredSum(|row| as real, step, start, w, SumX(row));
  }

  lemma CentredSum(n: real, h: real, start: real, w: real, sum: real)
    requires h * n == w && start == h / 2.0
    requires sum == n * start + h * (n * (n - 1.0) / 2.0)
    ensures sum == n * (w / 2.0)
  {
    calc {
      sum;
      n * (h / 2.0) + h * (n * (n - 1.0) / 2.0);
      (h * n) * n / 2.0;
      w * n / 2.0;
    }
  }

  function SumX(row: seq<Pos>): real
  {
    if |row| == 0 then 0.0 else SumX(row[..|row| - 1]) + row[|row| - 1].x
  }

  lemma {:induction false} SumArith(row: seq<Pos>, start: real, step: real)
    requires forall j | 0 <= j < |row| :: row[j].x == start + step * j as real
    ensures SumX(row) == |row| as real * start + step * (|row| as real * (|row| as real - 1.0) / 2.0)
    decreases |row|
  {
    if |row| > 0 {
      var n := |row| as real;
      SumArith(row[..|row| - 1], start, step);
      assert SumX(row) == (n - 1.0) * start + step * ((n - 1.0) * (n - 2.0) / 2.0) + (start + step * (n - 1.0));
    }
  }

  // ---- positions ----

  /** The positions of reversed level `i` (`level.map((node, j) => ...)`): the
      deepest level (`i == 0`) is spaced from `startX`, every other slot is the
      midpoint of slots `2j` and `2j + 1` of the level below. */
  function Row(i: nat, width: nat, sp: Spacings, below: seq<Pos>): (row: seq<Pos>)
    requires i > 0 ==> |below| == 2 * width
    ensures |row| == width
  {
    var y := sp.startY - sp.vertical * i as real;
    seq(width, j requires 0 <= j < width =>
      Pos(if i == 0 then sp.startX + sp.horizontal * j as real
          else (below[2 * j].x + below[2 * j + 1].x) / 2.0, y))
  }

  /** The loop of `drawNodes` over the reversed levels, collecting
      `nodePositions`; `done` holds the rows computed so far.  Positions are
      kept for placeholder slots too. */
  function NodePositions<V>(levels: seq<seq<Tree<V>>>, sp: Spacings, done: seq<seq<Pos>>): (r: seq<seq<Pos>>)
    requires |done| <= |levels|
    requires forall i | 0 < i < |levels| :: |levels[i - 1]| == 2 * |levels[i]|
    requires forall i | 0 <= i < |done| :: |done[i]| == |levels[i]|
    ensures |r| == |levels|
    ensures forall i | 0 <= i < |r| :: |r[i]| == |levels[i]|
    decreases |levels| - |done|
  {
    if |done| == |levels| then done
    else
      var i := |done|;
      NodePositions(levels, sp, done + [Row(i, |levels[i]|, sp, if i == 0 then [] else done[i - 1])])
  }

  function Reverse<T>(s: seq<T>): (r: seq<T>)
    ensures |r| == |s| && forall i | 0 <= i < |s| :: r[i] == s[|s| - 1 - i]
  {
    seq(|s|, i requires 0 <= i < |s| => s[|s| - 1 - i])
  }

  /** `node.setPos(x, y)` for every real node, from the position of its slot:
      `t` is reached by the path `at`, so it sits in slot `Index(at)` of level
      `|at|`; `rows` is indexed by level. */
  function Place<V>(t: Tree<V>, rows: seq<seq<Pos>>, at: Path): (r: Tree<V>)
    requires forall k | 0 <= k < |rows| :: |rows[k]| == Pow2(k)
    requires |at| + Height(t) <= |rows|
    ensures Erase(r) == Erase(t)
  {
    match t
    case Nil => Nil
    case Node(_, _, _, l, rt, _) =>
      var moved := t.(left := Place(l, rows, at + [Left]), right := Place(rt, rows, at + [Right]));
      SetPos(moved, rows[|at|][Index(at)].x, rows[|at|][Index(at)].y)
  }

  /** Every node reached from `t` by `p` takes the position of its slot and
      keeps its depth. */
  lemma {:induction false} PlaceAt<V>(t: Tree<V>, rows: seq<seq<Pos>>, at: Path, p: Path)
    requires forall k | 0 <= k < |rows| :: |rows[k]| == Pow2(k)
    requires |at| + Height(t) <= |rows|
    requires ValidPath(t, p)
    ensures |at + p| < |rows|
    ensures ValidPath(Place(t, rows, at), p)
    ensures Follow(Place(t, rows, at), p).x == rows[|at + p|][Index(at + p)].x
    ensures Follow(Place(t, rows, at), p).y == rows[|at + p|][Index(at + p)].y
    ensures Follow(Place(t, rows, at), p).depth == Follow(t, p).depth
    decreases |p|
  {
    ValidPathBelowHeight(t, p);
    if |p| == 0 {
      assert at + p == at;
    } else {
      var s, q := p[0], p[1..];
      assert p == [s] + q;
      assert at + p == (at + [s]) + q;
      FollowCons(t, s, q);
      FollowCons(Place(t, rows, at), s, q);
      PlaceAt(Child(t, s), rows, at + [s], q);
    }
  }

  // ---- the positions, solved ----

  /** A slot sits at the midpoint of its two child slots `a` and `b`. */
  lemma MidpointSlotX(w: real, d: nat, j: nat, a: nat, b: nat)
    requires a == 2 * j && b == 2 * j + 1
    ensures (SlotX(w, d + 1, a) + SlotX(w, d + 1, b)) / 2.0 == SlotX(w, d, j)
  {
    var q := Pow2(d + 1) as real;
    assert Pow2(d + 2) as real == 2.0 * q;
    MidpointArith(w, j as real, q);
  }

  lemma MidpointArith(w: real, a: real, q: real)
    requires q > 0.0
    ensures (w * (4.0 * a + 1.0) / (2.0 * q) + w * (4.0 * a + 3.0) / (2.0 * q)) / 2.0 == w * (2.0 * a + 1.0) / q
  {
    calc {
      (w * (4.0 * a + 1.0) / (2.0 * q) + w * (4.0 * a + 3.0) / (2.0 * q)) / 2.0;
      (w * (8.0 * a + 4.0) / (2.0 * q)) / 2.0;
      w * (2.0 * a + 1.0) / q;
    }
  }

  /** What the positioning needs of the spacings of a tree of height `h`:
      the deepest level's `2^(h - 1)` slots span the width starting half a
      slot in, and levels are `canvas.height / h` apart. */
  ghost predicate SpacingsFor(sp: Spacings, h: nat, radius: real, canvas: Canvas)
    requires h >= 1
  {
    && sp.startX == sp.horizontal / 2.0
    && sp.horizontal * Pow2(h - 1) as real == canvas.width as real
    && sp.vertical == canvas.height as real / h as real
    && sp.startY == radius + TopMargin + sp.vertical * (h - 1) as real
  }

  lemma ComputeSpacingsFor(h: nat, radius: real, canvas: Canvas)
    requires h >= 1
    ensures SpacingsFor(ComputeSpacings(Pow2(h - 1), h, radius, canvas), h, radius, canvas)
  {
    assert h > 1 || Pow2(h - 1) == 1;
  }

  /** The deepest level's slot `j` is `SlotX` of that level. */
  lemma DeepestSlotX(sp: Spacings, h: nat, radius: real, canvas: Canvas, j: nat)
    requires h >= 1 && SpacingsFor(sp, h, radius, canvas)
    ensures sp.startX + sp.horizontal * j as real == SlotX(canvas.width as real, h - 1, j)
  {
    assert Pow2(h) as real == 2.0 * Pow2(h - 1) as real;
    DeepestArith(sp.horizontal, Pow2(h - 1) as real, canvas.width as real, j as real);
  }

  lemma DeepestArith(h: real, n: real, w: real, a: real)
    requires n > 0.0 && h * n == w
    ensures h / 2.0 + h * a == w * (2.0 * a + 1.0) / (2.0 * n)
  {
    assert h == w / n;
  }

  /** The vertical position of reversed level `i` is that of level `h - 1 - i`. */
  lemma RowY(sp: Spacings, h: nat, radius: real, canvas: Canvas, i: nat)
    requires h >= 1 && i < h && SpacingsFor(sp, h, radius, canvas)
    ensures sp.startY - sp.vertical * i as real == LevelY(radius, canvas, h, h - 1 - i)
  {
  }

  /** Reversed row `i` of `rows` holds the solved positions of level `h - 1 - i`. */
  ghost predicate RowsSolved(rows: seq<seq<Pos>>, h: nat, radius: real, canvas: Canvas)
    requires h >= 1
  {
    forall i, j | 0 <= i < |rows| && i < h && 0 <= j < |rows[i]| ::
      rows[i][j] == Pos(SlotX(canvas.width as real, h - 1 - i, j), LevelY(radius, canvas, h, h - 1 - i))
  }

  /** One slot of a freshly computed row is at its solved position. */
  lemma RowEntrySolved(sp: Spacings, h: nat, radius: real, canvas: Canvas, i: nat, width: nat, below: seq<Pos>, j: nat)
    requires h >= 1 && i < h && SpacingsFor(sp, h, radius, canvas)
    requires j < width
    requires i > 0 ==> |below| == 2 * width
    requires i > 0 ==> (below[2 * j].x == SlotX(canvas.width as real, h - i, 2 * j)
                        && below[2 * j + 1].x == SlotX(canvas.width as real, h - i, 2 * j + 1))
    ensures Row(i, width, sp, below)[j]
         == Pos(SlotX(canvas.width as real, h - 1 - i, j), LevelY(radius, canvas, h, h - 1 - i))
  {
    RowY(sp, h, radius, canvas, i);
    if i == 0 {
      DeepestSlotX(sp, h, radius, canvas, j);
    } else {
      MidpointSlotX(canvas.width as real, h - 1 - i, j, 2 * j, 2 * j + 1);
    }
  }

  /** The next computed row is solved when the rows below it are. */
  lemma NextRowSolved<V>(levels: seq<seq<Tree<V>>>, sp: Spacings, radius: real, canvas: Canvas, done: seq<seq<Pos>>)
    requires |levels| >= 1 && |done| < |levels| && SpacingsFor(sp, |levels|, radius, canvas)
    requires forall i | 0 < i < |levels| :: |levels[i - 1]| == 2 * |levels[i]|
    requires forall i | 0 <= i < |done| :: |done[i]| == |levels[i]|
    requires RowsSolved(done, |levels|, radius, canvas)
    ensures var i := |done|;
      var row := Row(i, |levels[i]|, sp, if i == 0 then [] else done[i - 1]);
      forall j | 0 <= j < |row| ::
        row[j] == Pos(SlotX(canvas.width as real, |levels| - 1 - i, j), LevelY(radius, canvas, |levels|, |levels| - 1 - i))
  {
    var h, i := |levels|, |done|;
    var below := if i == 0 then [] else done[i - 1];
    var row := Row(i, |levels[i]|, sp, below);
    var w := canvas.width as real;
    forall j | 0 <= j < |row|
      ensures row[j] == Pos(SlotX(w, h - 1 - i, j), LevelY(radius, canvas, h, h - 1 - i))
    {
      if i > 0 {
        assert h - 1 - (i - 1) == h - i;
        assert below[2 * j] == done[i - 1][2 * j];
        assert below[2 * j + 1] == done[i - 1][2 * j + 1];
      }
      RowEntrySolved(sp, h, radius, canvas, i, |levels[i]|, below, j);
    }
  }

  /** Appending a solved row for the next level keeps every row solved. */
  lemma AppendSolved(done: seq<seq<Pos>>, row: seq<Pos>, h: nat, radius: real, canvas: Canvas)
    requires h >= 1 && |done| < h
    requires RowsSolved(done, h, radius, canvas)
    requires forall j | 0 <= j < |row| ::
      row[j] == Pos(SlotX(canvas.width as real, h - 1 - |done|, j), LevelY(radius, canvas, h, h - 1 - |done|))
    ensures RowsSolved(done + [row], h, radius, canvas)
  {
    var rows := done + [row];
    forall k, j | 0 <= k < |rows| && k < h && 0 <= j < |rows[k]|
      ensures rows[k][j] == Pos(SlotX(canvas.width as real, h - 1 - k, j), LevelY(radius, canvas, h, h - 1 - k))
    {
      if k < |done| {
        assert rows[k] == done[k];
      }
    }
  }

  /** The bottom-up loop computes the solved positions: slot `j` of level `d`
      at `SlotX(W, d, j)`, at the level's height. */
  lemma {:induction false} NodePositionsSolved<V>(levels: seq<seq<Tree<V>>>, sp: Spacings, radius: real, canvas: Canvas, done: seq<seq<Pos>>)
    requires |levels| >= 1 && |done| <= |levels| && SpacingsFor(sp, |levels|, radius, canvas)
    requires forall i | 0 < i < |levels| :: |levels[i - 1]| == 2 * |levels[i]|
    requires forall i | 0 <= i < |done| :: |done[i]| == |levels[i]|
    requires RowsSolved(done, |levels|, radius, canvas)
    ensures RowsSolved(NodePositions(levels, sp, done), |levels|, radius, canvas)
    decreases |levels| - |done|
  {
    if |done| < |levels| {
      var i := |done|;
      NextRowSolved(levels, sp, radius, canvas, done);
      AppendSolved(done, Row(i, |levels[i]|, sp, if i == 0 then [] else done[i - 1]), |levels|, radius, canvas);
      NodePositionsSolved(levels, sp, radius, canvas, done + [Row(i, |levels[i]|, sp, if i == 0 then [] else done[i - 1])]);
    }
  }

  /** Reversing levels of sizes `2^i` leaves the deepest level first, with
      each level twice the size of the next. */
  lemma ReversedLevelSizes<V>(levels: seq<seq<Tree<V>>>)
    requires |levels| >= 1
    requires forall i | 0 <= i < |levels| :: |levels[i]| == Pow2(i)
    ensures |Reverse(levels)[0]| == Pow2(|levels| - 1)
    ensures forall i | 0 < i < |levels| :: |Reverse(levels)[i - 1]| == 2 * |Reverse(levels)[i]|
  {
    var r := Reverse(levels);
    forall i | 0 < i < |levels|
      ensures |r[i - 1]| == 2 * |r[i]|
    {
      assert |levels| - 1 - (i - 1) == (|levels| - 1 - i) + 1;
    }
  }

  /** The loop of `drawNodes` over the levels of `toArray` (root level
      first) with the spacings `sp`: the levels reversed, positioned
      bottom-up and turned back. */
  function SlotRows<V>(levels: seq<seq<Tree<V>>>, sp: Spacings): (rows: seq<seq<Pos>>)
    requires |levels| >= 1
    requires forall i | 0 <= i < |levels| :: |levels[i]| == Pow2(i)
    ensures |rows| == |levels|
    ensures forall k | 0 <= k < |rows| :: |rows[k]| == Pow2(k)
  {
    ReversedLevelSizes(levels);
    var positions := NodePositions(Reverse(levels), sp, []);
    assert forall k | 0 <= k < |positions| :: |positions[k]| == Pow2(|levels| - 1 - k);
    Reverse(positions)
  }

  /** The slot positions `drawNodes` computes for `t`, indexed by level from
      the root: the spacings come from the width of the deepest level and
      the height found by the depth-first search. */
  function SlotPositions<V>(t: Tree<V>, radius: real, canvas: Canvas): (rows: seq<seq<Pos>>)
    requires t.Node?
    ensures |rows| == Height(t)
    ensures forall k | 0 <= k < |rows| :: |rows[k]| == Pow2(k)
  {
    var levels := ToArray(t).1;
    ToArrayLevelSizes(t);
    HeightByDfsIsHeight(t);
    ReversedLevelSizes(levels);
    SlotRows(levels, ComputeSpacings(|Reverse(levels)[0]|, HeightByDfs(t), radius, canvas))
  }

  /** `drawNodes` without the canvas output: the tree with every node's depth
      stamped and its position set. */
  function DrawNodes<V>(t: Tree<V>, radius: real, canvas: Canvas): (r: Tree<V>)
    requires t.Node?
    ensures Erase(r) == Erase(t)
  {
    var stamped := ToArray(t).0;
    SameShape(stamped, t, []);
    Place(stamped, SlotPositions(t, radius, canvas), [])
  }

  /** `draw`: nothing on an empty tree; otherwise the radius is recomputed and
      every node laid out. */
  function Draw<V>(e: Engine<V>, canvas: Canvas): (d: Engine<V>)
    ensures e.root.Nil? ==> d == e
    ensures d.selected == e.selected
    ensures Erase(d.root) == Erase(e.root)
  {
    if e.root.Nil? then e
    else
      var radius := CalculateNodeRadius(e.root, canvas);
      e.(root := DrawNodes(e.root, radius, canvas), radius := radius)
  }

  /** The tree as a draw leaves it: every node stamped with its distance from
      the root, at the solved position of its slot. */
  ghost predicate LaidOut<V>(t: Tree<V>, canvas: Canvas, radius: real)
  {
    && Height(t) >= 1
    && DepthsStamped(t)
    && ColumnsPlaced(t, canvas.width as real)
    && RowsPlaced(t, canvas, radius)
  }

  /** Every node carries its distance from the root as its depth. */
  ghost predicate DepthsStamped<V>(t: Tree<V>)
  {
    forall p | ValidPath(t, p) :: Follow(t, p).depth == |p|
  }

  /** Every node is at the horizontal position of its slot. */
  ghost predicate ColumnsPlaced<V>(t: Tree<V>, w: real)
  {
    forall p | ValidPath(t, p) :: Follow(t, p).x == SlotX(w, |p|, Index(p))
  }

  /** Every node is at the vertical position of its level. */
  ghost predicate RowsPlaced<V>(t: Tree<V>, canvas: Canvas, radius: real)
    requires Height(t) >= 1
  {
    forall p | ValidPath(t, p) :: Follow(t, p).y == LevelY(radius, canvas, Height(t), |p|)
  }

  /** Solved rows listed deepest first, turned back, are indexed by depth. */
  lemma ReverseRowsSolved(positions: seq<seq<Pos>>, h: nat, radius: real, canvas: Canvas)
    requires h >= 1 && |positions| == h && RowsSolved(positions, h, radius, canvas)
    ensures forall d, j | 0 <= d < h && 0 <= j < |Reverse(positions)[d]| ::
      Reverse(positions)[d][j] == Pos(SlotX(canvas.width as real, d, j), LevelY(radius, canvas, h, d))
  {
    var rows := Reverse(positions);
    forall d, j | 0 <= d < h && 0 <= j < |rows[d]|
      ensures rows[d][j] == Pos(SlotX(canvas.width as real, d, j), LevelY(radius, canvas, h, d))
    {
      var i := h - 1 - d;
      assert rows[d] == positions[i];
      assert h - 1 - i == d;
    }
  }

  /** With spacings solved for the tree's height, the rows the loop
      computes are the solved ones. */
  lemma SlotRowsSolved<V>(levels: seq<seq<Tree<V>>>, sp: Spacings, radius: real, canvas: Canvas)
    requires |levels| >= 1
    requires forall i | 0 <= i < |levels| :: |levels[i]| == Pow2(i)
    requires SpacingsFor(sp, |levels|, radius, canvas)
    ensures forall d, j | 0 <= d < |levels| && 0 <= j < Pow2(d) ::
      SlotRows(levels, sp)[d][j]
        == Pos(SlotX(canvas.width as real, d, j), LevelY(radius, canvas, |levels|, d))
  {
    var reversed := Reverse(levels);
    ReversedLevelSizes(levels);
    var positions := NodePositions(reversed, sp, []);
    NodePositionsSolved(reversed, sp, radius, canvas, []);
    ReverseRowsSolved(positions, |levels|, radius, canvas);
  }

  /** The computed slot positions are the solved ones. */
  lemma SlotPositionsSolved<V>(t: Tree<V>, radius: real, canvas: Canvas)
    requires t.Node?
    ensures forall d, j | 0 <= d < Height(t) && 0 <= j < Pow2(d) ::
      SlotPositions(t, radius, canvas)[d][j]
        == Pos(SlotX(canvas.width as real, d, j), LevelY(radius, canvas, Height(t), d))
  {
    var levels := ToArray(t).1;
    ToArrayLevelSizes(t);
    HeightByDfsIsHeight(t);
    ReversedLevelSizes(levels);
    var h := |levels|;
    var sp := ComputeSpacings(|Reverse(levels)[0]|, HeightByDfs(t), radius, canvas);
    assert SpacingsFor(sp, h, radius, canvas) by {
      ComputeSpacingsFor(h, radius, canvas);
    }
    SlotRowsSolved(levels, sp, radius, canvas);
  }

  /** `drawNodes` lays the tree out. */
  lemma DrawNodesLaysOut<V>(t: Tree<V>, radius: real, canvas: Canvas)
    requires t.Node?
    ensures LaidOut(DrawNodes(t, radius, canvas), canvas, radius)
  {
    var stamped := ToArray(t).0;
    var rows := SlotPositions(t, radius, canvas);
    SlotPositionsSolved(t, radius, canvas);
    SameShape(stamped, t, []);
    var r := DrawNodes(t, radius, canvas);
    SameShape(r, t, []);
    forall p | ValidPath(r, p)
      ensures Follow(r, p).depth == |p|
      ensures Follow(r, p).x == SlotX(canvas.width as real, |p|, Index(p))
      ensures Follow(r, p).y == LevelY(radius, canvas, Height(t), |p|)
    {
      SameShape(r, t, p);
      ToArrayStampsDepths(t, p);
      PlaceAt(stamped, rows, [], p);
      assert [] + p == p;
    }
  }

  /** `draw` lays out a non-empty tree with the radius it computes. */
  lemma DrawLaysOut<V>(e: Engine<V>, canvas: Canvas)
    requires e.root.Node?
    ensures LaidOut(Draw(e, canvas).root, canvas, Draw(e, canvas).radius)
    ensures Draw(e, canvas).radius == ScaleFactor * Min(canvas.width as real / Pow2(Height(e.root) - 1) as real,
                                                        canvas.height as real / Height(e.root) as real)
  {
    DrawNodesLaysOut(e.root, CalculateNodeRadius(e.root, canvas), canvas);
  }
}

=== FILE: levels.dfy ===
/** Level decomposition and the derived measures of static/js/tree/binary_tree.js:
    `toArray`, the `height` getter with its depth-first search, and the `width`
    getter.

    A level is a sequence of slots.  A slot is a real node or a placeholder
    (`Nil`, the `null` the walk pushes for an absent child), so level `i` always
    has 2^i slots and slot `j` of level `i` sits below slot `j / 2` of level
    `i - 1`. */
module Levels {
  import opened Wrappers
  import opened TreeNodes
  import opened Paths

  /** Reference decomposition: slot `j` of level `i` is what the path of length
      `i` whose binary reading is `j` leads to. */
  function Slots<V>(t: Tree<V>, i: nat): (level: seq<Tree<V>>)
    ensures |level| == Pow2(i)
  {
    seq(Pow2(i), j requires 0 <= j < Pow2(i) => Follow(t, PathOf(j, i)))
  }

  /** At least one slot of `level` is a real node (`level.some(node => node !== null)`). */
  predicate HasReal<V>(level: seq<Tree<V>>)
  {
    exists k | 0 <= k < |level| :: level[k].Node?
  }

  /** The two slots the walk pushes for one slot: a node's children, or two
      placeholders below a placeholder. */
  function Kids<V>(slot: Tree<V>): seq<Tree<V>>
  {
    if slot.Node? then [slot.left, slot.right] else [Nil, Nil]
  }

  /** `nextLevel` as the `forEach` of toArray builds it, left to right. */
  function Expand<V>(level: seq<Tree<V>>): (next: seq<Tree<V>>)
    ensures |next| == 2 * |level|
  {
    if |level| == 0 then [] else Expand(level[..|level| - 1]) + Kids(level[|level| - 1])
  }

  /** Where the two slots pushed for slot `k` land. */
  lemma {:induction false} ExpandAt<V>(level: seq<Tree<V>>, k: nat)
    requires k < |level|
    ensures Expand(level)[2 * k] == Kids(level[k])[0]
    ensures Expand(level)[2 * k + 1] == Kids(level[k])[1]
    decreases |level|
  {
    var front := level[..|level| - 1];
    if k < |level| - 1 {
      ExpandAt(front, k);
    }
  }

  /** The slot pushed on side `s` of slot `k` of level `i`. */
  lemma ExpandSlotOf<V>(t: Tree<V>, i: nat, k: nat, s: Side)
    requires k < Pow2(i)
    ensures Expand(Slots(t, i))[2 * k + (if s == Right then 1 else 0)] == Follow(t, PathOf(k, i) + [s])
  {
    var level := Slots(t, i);
    var q := PathOf(k, i);
    FollowSnoc(t, q, s);
    assert level[k] == Follow(t, q);
    ExpandAt(level, k);
  }

  /** Slot `m` of level `i + 1` is pushed for slot `m / 2` of level `i`. */
  lemma ExpandSlotsAt<V>(t: Tree<V>, i: nat, m: nat)
    requires m < 2 * Pow2(i)
    ensures Expand(Slots(t, i))[m] == Follow(t, PathOf(m, i + 1))
  {
    var s := if m % 2 == 1 then Right else Left;
    PathOfHalf(m, i, s);
    ExpandSlotOf(t, i, m / 2, s);
  }

  /** The path to slot `m` of level `i + 1` is the path to slot `m / 2` of
      level `i` and one step to the side of `m`'s last bit. */
  lemma PathOfHalf(m: nat, i: nat, s: Side)
    requires m < 2 * Pow2(i) && s == (if m % 2 == 1 then Right else Left)
    ensures m / 2 < Pow2(i) && m == 2 * (m / 2) + (if s == Right then 1 else 0)
    ensures PathOf(m, i + 1) == PathOf(m / 2, i) + [s]
  {
    var q := PathOf(m / 2, i);
    var r := q + [s];
    assert |r| == i + 1;
    assert Index(r) == m by {
      IndexSnoc(q, s);
    }
    PathOfIndex(r);
  }

  /** Expanding level `i` gives level `i + 1`: the walk builds exactly the
      reference levels. */
  lemma ExpandSlots<V>(t: Tree<V>, i: nat)
    ensures Expand(Slots(t, i)) == Slots(t, i + 1)
  {
    var e := Expand(Slots(t, i));
    var next := Slots(t, i + 1);
    assert |e| == |next|;
    forall m | 0 <= m < |next|
      ensures e[m] == next[m]
    {
      ExpandSlotsAt(t, i, m);
    }
  }

  /** A level holds a real node exactly when it lies above the height. */
  lemma SlotsHaveRealIff<V>(t: Tree<V>, i: nat)
    ensures HasReal(Slots(t, i)) <==> i < Height(t)
  {
    var level := Slots(t, i);
    if HasReal(level) {
      var k :| 0 <= k < |level| && level[k].Node?;
      ValidPathBelowHeight(t, PathOf(k, i));
    }
    if i < Height(t) {
      var p := DeepPath(t, i);
      PathOfIndex(p);
      assert level[Index(p)].Node?;
    }
  }

  /** Every slot's depth becomes its distance from the root (`node.depth = levels.length`). */
  function StampDepths<V>(t: Tree<V>, d: nat): (r: Tree<V>)
    ensures Erase(r) == Erase(t)
  {
    match t
    case Nil => Nil
    case Node(v, x, y, l, r, _) => Node(v, x, y, StampDepths(l, d + 1), StampDepths(r, d + 1), d)
  }

  /** The node at path `p` is stamped with `d + |p|`, and keeps its position. */
  lemma {:induction false} StampDepthsAt<V>(t: Tree<V>, d: nat, p: Path)
    requires ValidPath(t, p)
    ensures ValidPath(StampDepths(t, d), p)
    ensures Follow(StampDepths(t, d), p).depth == d + |p|
    ensures Follow(StampDepths(t, d), p).x == Follow(t, p).x
    ensures Follow(StampDepths(t, d), p).y == Follow(t, p).y
    decreases |p|
  {
    if |p| > 0 {
      StampDepthsAt(Child(t, p[0]), d + 1, p[1..]);
    }
  }

  /** The `while` loop of toArray.  `level` is the level being visited and
      `levels` the levels emitted so far; a level without a real node empties
      `level` (`level.length = 0`), which ends the loop. */
  function Walk<V>(root: Tree<V>, level: seq<Tree<V>>, levels: seq<seq<Tree<V>>>): (r: seq<seq<Tree<V>>>)
    requires |levels| <= Height(root)
    requires |level| > 0 ==> level == Slots(root, |levels|)
    requires forall i | 0 <= i < |levels| :: levels[i] == Slots(root, i)
    ensures forall i | 0 <= i < |r| :: r[i] == Slots(root, i)
    ensures root.Node? && |level| > 0 ==> |r| == Height(root)
    ensures root.Nil? || |level| == 0 ==> r == levels
    decreases Height(root) - |levels|, |level|
  {
    if root.Node? && |level| > 0 then
      var nextLevel := Expand(level);
      SlotsHaveRealIff(root, |levels|);
      if HasReal(level) then
        ExpandSlots(root, |levels|);
        Walk(root, nextLevel, levels + [level])
      else
        Walk(root, [], levels)
    else
      levels
  }

  /** `toArray`: the stamped tree and its levels, from the root down to the
      last level that still holds a real node. */
  function ToArray<V>(t: Tree<V>): (r: (Tree<V>, seq<seq<Tree<V>>>))
    ensures Erase(r.0) == Erase(t)
    ensures |r.1| == Height(t)
    ensures forall i | 0 <= i < |r.1| :: r.1[i] == Slots(r.0, i)
  {
    var stamped := StampDepths(t, 0);
    SameShape(stamped, t, []);
    assert Slots(stamped, 0) == [stamped];
    (stamped, Walk(stamped, [stamped], []))
  }

  /** The walk stamps every real node with its distance from the root and
      leaves its position alone. */
  lemma ToArrayStampsDepths<V>(t: Tree<V>, p: Path)
    requires ValidPath(t, p)
    ensures ValidPath(ToArray(t).0, p)
    ensures Follow(ToArray(t).0, p).depth == |p|
    ensures Follow(ToArray(t).0, p).x == Follow(t, p).x && Follow(ToArray(t).0, p).y == Follow(t, p).y
  {
    SameShape(ToArray(t).0, t, p);
    StampDepthsAt(t, 0, p);
  }

  /** Shape of the result: nothing for the empty tree; otherwise level 0 is the
      root alone, each level is twice as long as the one before, and every
      emitted level holds a real node. */
  lemma ToArrayLevelSizes<V>(t: Tree<V>)
    ensures ToArray(t).1 == [] <==> t.Nil?
    ensures t.Node? ==> ToArray(t).1[0] == [ToArray(t).0]
    ensures forall i | 0 <= i < |ToArray(t).1| :: |ToArray(t).1[i]| == Pow2(i)
    ensures forall i | 0 < i < |ToArray(t).1| :: |ToArray(t).1[i]| == 2 * |ToArray(t).1[i - 1]|
    ensures forall i | 0 <= i < |ToArray(t).1| :: HasReal(ToArray(t).1[i])
  {
    var (stamped, levels) := ToArray(t);
    SameShape(stamped, t, []);
    forall i | 0 <= i < |levels|
      ensures HasReal(levels[i])
    {
      SlotsHaveRealIff(stamped, i);
    }
  }

  /** No real node is left out: the node at path `p` sits in level `|p|` at
      slot `Index(p)`; conversely every real slot is the node its path leads to,
      so the real slots of all levels are exactly the nodes of the tree. */
  lemma ToArrayPlacesEveryNode<V>(t: Tree<V>)
    ensures forall p | ValidPath(t, p) ::
      |p| < |ToArray(t).1| && ToArray(t).1[|p|][Index(p)] == Follow(ToArray(t).0, p)
    ensures forall i, j | 0 <= i < |ToArray(t).1| && 0 <= j < |ToArray(t).1[i]| ::
      ToArray(t).1[i][j].Node? <==> ValidPath(t, PathOf(j, i))
  {
    var (stamped, levels) := ToArray(t);
    forall p | ValidPath(t, p)
      ensures |p| < |levels| && levels[|p|][Index(p)] == Follow(stamped, p)
    {
      ValidPathBelowHeight(t, p);
      PathOfIndex(p);
    }
    forall i, j | 0 <= i < |levels| && 0 <= j < |levels[i]|
      ensures levels[i][j].Node? <==> ValidPath(t, PathOf(j, i))
    {
      SameShape(stamped, t, PathOf(j, i));
    }
  }

  // ---- counting the real slots ----

  /** Number of real nodes in a level. */
  function CountReal<V>(level: seq<Tree<V>>): nat
  {
    if |level| == 0 then 0
    else CountReal(level[..|level| - 1]) + (if level[|level| - 1].Node? then 1 else 0)
  }

  /** Number of real nodes over all levels. */
  function CountAll<V>(levels: seq<seq<Tree<V>>>): nat
  {
    if |levels| == 0 then 0 else CountAll(levels[..|levels| - 1]) + CountReal(levels[|levels| - 1])
  }

  lemma {:induction false} CountRealConcat<V>(a: seq<Tree<V>>, b: seq<Tree<V>>)
    ensures CountReal(a + b) == CountReal(a) + CountReal(b)
    decreases |b|
  {
    if |b| > 0 {
      assert (a + b)[..|a + b| - 1] == a + b[..|b| - 1];
      CountRealConcat(a, b[..|b| - 1]);
    } else {
      assert a + b == a;
    }
  }

  lemma {:induction false} CountRealNone<V>(level: seq<Tree<V>>)
    requires forall k | 0 <= k < |level| :: level[k].Nil?
    ensures CountReal(level) == 0
    decreases |level|
  {
    if |level| > 0 {
      CountRealNone(level[..|level| - 1]);
    }
  }

  /** Level `i + 1` of a node is level `i` of its left subtree followed by
      level `i` of its right subtree. */
  lemma SlotsSplit<V>(t: Tree<V>, i: nat)
    requires t.Node?
    ensures Slots(t, i + 1) == Slots(t.left, i) + Slots(t.right, i)
  {
    var a, b := Slots(t.left, i), Slots(t.right, i);
    var c := Slots(t, i + 1);
    assert Pow2(i + 1) == 2 * Pow2(i);
    forall m | 0 <= m < |c|
      ensures c[m] == (a + b)[m]
    {
      if m < Pow2(i) {
        FollowCons(t, Left, PathOf(m, i));
      } else {
        FollowCons(t, Right, PathOf(m - Pow2(i), i));
      }
    }
  }

  /** Real nodes at distance `i` below the root, counted on the tree itself. */
  function LevelCount<V>(t: Tree<V>, i: nat): nat
  {
    if t.Nil? then 0
    else if i == 0 then 1
    else LevelCount(t.left, i - 1) + LevelCount(t.right, i - 1)
  }

  /** Level `i + 1` of a node holds as many real nodes as level `i` of its
      two subtrees together. */
  lemma CountSplit<V>(t: Tree<V>, i: nat)
    requires t.Node?
    ensures CountReal(Slots(t, i + 1)) == CountReal(Slots(t.left, i)) + CountReal(Slots(t.right, i))
  {
    SlotsSplit(t, i);
    CountRealConcat(Slots(t.left, i), Slots(t.right, i));
  }

  /** The real slots of level `i` are the nodes at distance `i`. */
  lemma {:induction false} CountRealSlots<V>(t: Tree<V>, i: nat)
    ensures CountReal(Slots(t, i)) == LevelCount(t, i)
    decreases t
  {
    if t.Nil? {
      CountRealEmpty<V>(i);
    } else if i == 0 {
      CountRealTop(t);
    } else {
      var j := i - 1;
      CountSplit(t, j);
      CountRealSlots(t.left, j);
      CountRealSlots(t.right, j);
      assert LevelCount(t, j + 1) == LevelCount(t.left, j) + LevelCount(t.right, j);
    }
  }

  /** Every level of the empty tree is placeholders only. */
  lemma CountRealEmpty<V>(i: nat)
    ensures CountReal(Slots<V>(Nil, i)) == 0
  {
    var level := Slots<V>(Nil, i);
    forall k | 0 <= k < |level|
      ensures level[k].Nil?
    {
    }
    CountRealNone(level);
  }

  /** The root level of a node holds just the node. */
  lemma CountRealTop<V>(t: Tree<V>)
    requires t.Node?
    ensures CountReal(Slots(t, 0)) == 1
  {
    var top := Slots(t, 0);
    assert top == [t];
    assert CountReal(top) == CountReal(top[..0]) + 1;
  }

  /** Real nodes in the first `n` levels. */
  function LevelSum<V>(t: Tree<V>, n: nat): nat
  {
    if n == 0 then 0 else LevelSum(t, n - 1) + LevelCount(t, n - 1)
  }

  /** The levels of a node are its own level followed by its subtrees' levels
      side by side. */
  lemma {:induction false} LevelSumSplit<V>(t: Tree<V>, n: nat)
    requires t.Node?
    ensures LevelSum(t, n + 1) == 1 + LevelSum(t.left, n) + LevelSum(t.right, n)
  {
    if n > 0 {
      LevelSumSplit(t, n - 1);
    }
  }

  lemma {:induction false} LevelSumNil<V>(n: nat)
    ensures LevelSum<V>(Nil, n) == 0
  {
    if n > 0 {
      LevelSumNil<V>(n - 1);
    }
  }

  lemma {:induction false} LevelSumSize<V>(t: Tree<V>, n: nat)
    requires n >= Height(t)
    ensures LevelSum(t, n) == Size(t)
  {
    if t.Nil? {
      LevelSumNil<V>(n);
    } else {
      LevelSumSplit(t, n - 1);
      LevelSumSize(t.left, n - 1);
      LevelSumSize(t.right, n - 1);
    }
  }

  lemma {:induction false} CountAllLevels<V>(t: Tree<V>, levels: seq<seq<Tree<V>>>)
    requires forall i | 0 <= i < |levels| :: levels[i] == Slots(t, i)
    ensures CountAll(levels) == LevelSum(t, |levels|)
    decreases |levels|
  {
    if |levels| > 0 {
      CountAllLevels(t, levels[..|levels| - 1]);
      CountRealSlots(t, |levels| - 1);
    }
  }

  /** Counting the real slots of every level counts every node once. */
  lemma ToArrayCountsEveryNode<V>(t: Tree<V>)
    ensures CountAll(ToArray(t).1) == Size(t)
  {
    var (stamped, levels) := ToArray(t);
    CountAllLevels(stamped, levels);
    SameShape(stamped, t, []);
    LevelSumSize(stamped, |levels|);
  }

  // ---- height ----

  /** The inner `dfs` of the `height` getter; returns the updated `maxHeight`. */
  function Dfs<V>(node: Tree<V>, currentHeight: nat, maxHeight: nat): nat
  {
    if node.Nil? then maxHeight
    else
      var h := currentHeight + 1;
      var m := Max(maxHeight, h);
      Dfs(node.right, h, Dfs(node.left, h, m))
  }

  /** The `height` getter: `dfs(this.root, 0)` from `maxHeight = 0`. */
  function HeightByDfs<V>(t: Tree<V>): nat
  {
    Dfs(t, 0, 0)
  }

  lemma {:induction false} DfsMax<V>(node: Tree<V>, currentHeight: nat, maxHeight: nat)
    requires currentHeight <= maxHeight
    ensures Dfs(node, currentHeight, maxHeight) == Max(maxHeight, currentHeight + Height(node))
  {
    if node.Node? {
      var h := currentHeight + 1;
      var m := Max(maxHeight, h);
      DfsMax(node.left, h, m);
      DfsMax(node.right, h, Dfs(node.left, h, m));
    }
  }

  /** The search-based height is the structural height, and it is the number
      of levels toArray emits. */
  lemma HeightByDfsIsHeight<V>(t: Tree<V>)
    ensures HeightByDfs(t) == Height(t) == |ToArray(t).1|
  {
    DfsMax(t, 0, 0);
  }

  // ---- width ----

  /** `Math.max(...lengths)`; `None` is the `-Infinity` of `Math.max()` with
      no arguments. */
  function MaxLength<V>(levels: seq<seq<Tree<V>>>): (w: Option<nat>)
    ensures w.None? <==> |levels| == 0
    ensures w.Some? ==> forall i | 0 <= i < |levels| :: |levels[i]| <= w.value
    ensures w.Some? ==> exists i | 0 <= i < |levels| :: |levels[i]| == w.value
  {
    if |levels| == 0 then None
    else
      var last := |levels[|levels| - 1]|;
      match MaxLength(levels[..|levels| - 1])
      case None => Some(last)
      case Some(m) => Some(if m < last then last else m)
  }

  /** The `width` getter: the longest level, which is the deepest one. */
  function Width<V>(t: Tree<V>): (w: Option<nat>)
    ensures w.None? <==> t.Nil?
    ensures w.Some? ==> w.value == Pow2(Height(t) - 1) == |ToArray(t).1[Height(t) - 1]|
  {
    var levels := ToArray(t).1;
    ToArrayLevelSizes(t);
    var w := MaxLength(levels);
    if w.Some? then
      var i :| 0 <= i < |levels| && |levels[i]| == w.value;
      assert |levels[|levels| - 1]| <= w.value;
      Pow2Monotone(i, |levels| - 1);
      w
    else
      w
  }

  lemma {:induction false} Pow2Monotone(a: nat, b: nat)
    requires a <= b
    ensures Pow2(a) <= Pow2(b)
    decreases b
  {
    if a < b {
      Pow2Monotone(a, b - 1);
    }
  }
}

=== FILE: paths.dfy ===
/** Paths from the root.  The engine remembers its selected node as the path that
    leads to it, and a level-order slot is addressed by the path read as a binary
    number. */
module Paths {
  import opened TreeNodes

  /** The sides taken from the root, first step first. */
  type Path = seq<Side>

  /** The slot reached by walking `p` from `t`: `Nil` once the walk leaves the tree. */
  function Follow<V>(t: Tree<V>, p: Path): Tree<V>
    decreases |p|
  {
    if |p| == 0 then t
    else if t.Nil? then Nil
    else Follow(Child(t, p[0]), p[1..])
  }

  /** `p` leads to a real node of `t`. */
  predicate ValidPath<V>(t: Tree<V>, p: Path)
  {
    Follow(t, p).Node?
  }

  function Pow2(n: nat): (r: nat)
    ensures r >= 1
  {
    if n == 0 then 1 else 2 * Pow2(n - 1)
  }

  /** The position of the slot reached by `p` within its level: `p` read as a
      binary number, most significant step first, `Left` = 0 and `Right` = 1. */
  function Index(p: Path): (j: nat)
    ensures j < Pow2(|p|)
  {
    if |p| == 0 then 0
    else (if p[0] == Right then Pow2(|p| - 1) else 0) + Index(p[1..])
  }

  /** The path of length `n` that leads to slot `j` of level `n`. */
  function PathOf(j: nat, n: nat): (p: Path)
    requires j < Pow2(n)
    ensures |p| == n && Index(p) == j
  {
    if n == 0 then []
    else if j < Pow2(n - 1) then [Left] + PathOf(j, n - 1)
    else [Right] + PathOf(j - Pow2(n - 1), n - 1)
  }

  /** `Index` and `PathOf` are inverse: slots of a level and paths of that
      length are in one-to-one correspondence. */
  lemma {:induction false} PathOfIndex(p: Path)
    ensures PathOf(Index(p), |p|) == p
  {
    if |p| > 0 {
      var q := p[1..];
      PathOfIndex(q);
      assert p == [p[0]] + q;
    }
  }

  /** Two different paths of one length address different slots. */
  lemma IndexInjective(p: Path, q: Path)
    requires |p| == |q| && p != q
    ensures Index(p) != Index(q)
  {
    PathOfIndex(p);
    PathOfIndex(q);
  }

  /** One step, then the rest of the walk. */
  lemma FollowCons<V>(t: Tree<V>, s: Side, q: Path)
    requires t.Node?
    ensures Follow(t, [s] + q) == Follow(Child(t, s), q)
  {
    assert ([s] + q)[1..] == q;
  }

  /** A path to a real node is shorter than the height of the tree. */
  lemma {:induction false} ValidPathBelowHeight<V>(t: Tree<V>, p: Path)
    requires ValidPath(t, p)
    ensures |p| < Height(t)
    decreases |p|
  {
    if |p| > 0 {
      ValidPathBelowHeight(Child(t, p[0]), p[1..]);
    }
  }

  /** Walking the erased tree is erasing the slot walked to. */
  lemma {:induction false} FollowErase<V>(t: Tree<V>, p: Path)
    ensures Follow(Erase(t), p) == Erase(Follow(t, p))
    decreases |p|
  {
    if |p| > 0 && t.Node? {
      FollowErase(Child(t, p[0]), p[1..]);
    }
  }

  /** Trees that differ only in layout data have the same nodes, values and height. */
  lemma SameShape<V>(a: Tree<V>, b: Tree<V>, p: Path)
    requires Erase(a) == Erase(b)
    ensures ValidPath(a, p) <==> ValidPath(b, p)
    ensures ValidPath(a, p) ==> Follow(a, p).value == Follow(b, p).value
    ensures Height(a) == Height(b) && Size(a) == Size(b)
  {
    FollowErase(a, p);
    FollowErase(b, p);
    EraseKeepsMeasures(a);
    EraseKeepsMeasures(b);
  }

  /** Forgetting positions and depths keeps the height and the node count. */
  lemma EraseKeepsMeasures<V>(t: Tree<V>)
    ensures Height(Erase(t)) == Height(t) && Size(Erase(t)) == Size(t)
  {
  }

  /** Appending a step doubles the slot index and adds the step's bit. */
  lemma {:induction false} IndexSnoc(q: Path, s: Side)
    ensures Index(q + [s]) == 2 * Index(q) + (if s == Right then 1 else 0)
  {
    if |q| > 0 {
      IndexSnoc(q[1..], s);
      assert (q + [s])[1..] == q[1..] + [s];
    }
  }

  /** The walk along `q + [s]` is one more step from where `q` ends. */
  lemma {:induction false} FollowSnoc<V>(t: Tree<V>, q: Path, s: Side)
    ensures Follow(t, q + [s]) == (if Follow(t, q).Nil? then Nil else Child(Follow(t, q), s))
    decreases |q|
  {
    if |q| == 0 {
      assert q + [s] == [s];
      if t.Node? {
        assert [s][1..] == [];
      }
    } else if t.Node? {
      assert (q + [s])[1..] == q[1..] + [s];
      FollowSnoc(Child(t, q[0]), q[1..], s);
    }
  }

  /** Every level above the height holds a real node. */
  lemma {:induction false} DeepPath<V>(t: Tree<V>, i: nat) returns (p: Path)
    requires i < Height(t)
    ensures |p| == i && ValidPath(t, p)
  {
    if i == 0 {
      p := [];
    } else {
      var s := if Height(t.left) >= Height(t.right) then Left else Right;
      var q := DeepPath(Child(t, s), i - 1);
      FollowCons(t, s, q);
      p := [s] + q;
    }
  }

  /** `a` and `b` have a node at `p` in the same cases, and there the nodes
      carry the same data. */
  ghost predicate SameNodeAt<V>(a: Tree<V>, b: Tree<V>, p: Path)
  {
    && (ValidPath(a, p) <==> ValidPath(b, p))
    && (ValidPath(a, p) ==>
          && Follow(a, p).value == Follow(b, p).value
          && Follow(a, p).x == Follow(b, p).x
          && Follow(a, p).y == Follow(b, p).y
          && Follow(a, p).depth == Follow(b, p).depth)
  }

  /** Trees that agree at every path are equal. */
  lemma {:induction false} TreeExt<V>(a: Tree<V>, b: Tree<V>)
    requires forall p :: SameNodeAt(a, b, p)
    ensures a == b
  {
    assert SameNodeAt(a, b, []);
    if a.Node? {
      forall q
        ensures SameNodeAt(a.left, b.left, q) && SameNodeAt(a.right, b.right, q)
      {
        assert SameNodeAt(a, b, [Left] + q);
        assert SameNodeAt(a, b, [Right] + q);
        FollowCons(a, Left, q);
        FollowCons(b, Left, q);
        FollowCons(a, Right, q);
        FollowCons(b, Right, q);
      }
      TreeExt(a.left, b.left);
      TreeExt(a.right, b.right);
    }
  }
}

=== FILE: selection.dfy ===
/** The click handler `updateSelectedNode` of static/js/tree/binary_tree.js:
    a pre-order hit-test for the node under the pointer, and a redraw plus a
    notification only when the selection changes. */
module Selection {
  import opened Wrappers
  import opened TreeNodes
  import opened Paths
  import opened BinaryTrees
  import opened Layout
  import opened Geometry

  /** The click lands on the circle of `n`: `Math.sqrt(dx*dx + dy*dy) <= radius`.
      A square root is never negative, so the comparison is the squared one
      when the radius is not negative, and never holds when it is. */
  predicate Hit<V>(n: Tree<V>, px: real, py: real, radius: real)
    requires n.Node?
  {
    radius >= 0.0 && Dist2(px, py, n.x, n.y) <= Sq(radius)
  }

  /** The node at `p` exists and is hit. */
  predicate HitsAt<V>(t: Tree<V>, p: Path, px: real, py: real, radius: real)
  {
    ValidPath(t, p) && Hit(Follow(t, p), px, py, radius)
  }

  /** The inner `search`: the node itself, then `search(node.left) ||
      search(node.right)`. */
  function Search<V>(t: Tree<V>, px: real, py: real, radius: real): (r: Option<Path>)
    ensures r.Some? ==> HitsAt(t, r.value, px, py, radius)
  {
    if t.Nil? then None
    else if Hit(t, px, py, radius) then Some([])
    else match Search(t.left, px, py, radius)
      case Some(p) => FollowCons(t, Left, p); Some([Left] + p)
      case None =>
        match Search(t.right, px, py, radius)
        case Some(p) => FollowCons(t, Right, p); Some([Right] + p)
        case None => None
  }

  // ---- pre-order, the reference order of the search ----

  /** Every path of `ps`, one step down on side `s`. */
  function Prefixed(s: Side, ps: seq<Path>): (r: seq<Path>)
    ensures |r| == |ps|
  {
    seq(|ps|, i requires 0 <= i < |ps| => [s] + ps[i])
  }

  /** The paths of all nodes, node first, then the left subtree, then the right one. */
  function Preorder<V>(t: Tree<V>): seq<Path>
  {
    if t.Nil? then []
    else [[]] + Prefixed(Left, Preorder(t.left)) + Prefixed(Right, Preorder(t.right))
  }

  /** The first path of `ps` whose node is hit. */
  function FirstHit<V>(t: Tree<V>, ps: seq<Path>, px: real, py: real, radius: real): Option<Path>
  {
    if |ps| == 0 then None
    else if HitsAt(t, ps[0], px, py, radius) then Some(ps[0])
    else FirstHit(t, ps[1..], px, py, radius)
  }

  /** `Preorder` lists exactly the nodes of the tree. */
  lemma {:induction false} PreorderIsEveryNode<V>(t: Tree<V>, p: Path)
    ensures p in Preorder(t) <==> ValidPath(t, p)
  {
    if t.Node? {
      var l, r := Preorder(t.left), Preorder(t.right);
      assert Preorder(t) == [[]] + Prefixed(Left, l) + Prefixed(Right, r);
      if |p| == 0 {
        assert p == [] && p in Preorder(t);
      } else {
        var q := p[1..];
        assert p == [p[0]] + q;
        FollowCons(t, p[0], q);
        PreorderIsEveryNode(Child(t, p[0]), q);
        if p in Preorder(t) {
          assert p in Prefixed(Left, l) || p in Prefixed(Right, r);
          if p in Prefixed(Left, l) {
            var i :| 0 <= i < |l| && Prefixed(Left, l)[i] == p;
            assert [Left] + l[i] == p;
            assert l[i] == q;
          } else {
            var i :| 0 <= i < |r| && Prefixed(Right, r)[i] == p;
            assert [Right] + r[i] == p;
            assert r[i] == q;
          }
        }
        if ValidPath(t, p) {
          if p[0] == Left {
            var i :| 0 <= i < |l| && l[i] == q;
            assert Prefixed(Left, l)[i] == p;
          } else {
            var i :| 0 <= i < |r| && r[i] == q;
            assert Prefixed(Right, r)[i] == p;
          }
        }
      }
    }
  }

  lemma {:induction false} FirstHitConcat<V>(t: Tree<V>, a: seq<Path>, b: seq<Path>, px: real, py: real, radius: real)
    ensures FirstHit(t, a + b, px, py, radius)
         == if FirstHit(t, a, px, py, radius).Some? then FirstHit(t, a, px, py, radius)
            else FirstHit(t, b, px, py, radius)
  {
    if |a| > 0 {
      assert (a + b)[0] == a[0];
      assert (a + b)[1..] == a[1..] + b;
      FirstHitConcat(t, a[1..], b, px, py, radius);
    } else {
      assert a + b == b;
    }
  }

  /** Searching paths one step down is searching the child, one step further. */
  lemma {:induction false} FirstHitPrefixed<V>(t: Tree<V>, s: Side, ps: seq<Path>, px: real, py: real, radius: real)
    requires t.Node?
    ensures FirstHit(t, Prefixed(s, ps), px, py, radius)
         == match FirstHit(Child(t, s), ps, px, py, radius)
            case None => None
            case Some(p) => Some([s] + p)
  {
    if |ps| > 0 {
      FollowCons(t, s, ps[0]);
      assert Prefixed(s, ps)[1..] == Prefixed(s, ps[1..]);
      FirstHitPrefixed(t, s, ps[1..], px, py, radius);
    }
  }

  /** `search` finds the first node in pre-order that the click hits. */
  lemma {:induction false} SearchIsFirstHit<V>(t: Tree<V>, px: real, py: real, radius: real)
    ensures Search(t, px, py, radius) == FirstHit(t, Preorder(t), px, py, radius)
  {
    if t.Node? {
      var l, r := Preorder(t.left), Preorder(t.right);
      var pl, pr := Prefixed(Left, l), Prefixed(Right, r);
      assert Preorder(t) == [[]] + pl + pr;
      assert [[]] + pl + pr == [[]] + (pl + pr);
      assert Follow(t, []) == t;
      assert FirstHit(t, [[]] + (pl + pr), px, py, radius)
          == if Hit(t, px, py, radius) then Some([]) else FirstHit(t, pl + pr, px, py, radius);
      FirstHitConcat(t, pl, pr, px, py, radius);
      FirstHitPrefixed(t, Left, l, px, py, radius);
      FirstHitPrefixed(t, Right, r, px, py, radius);
      SearchIsFirstHit(t.left, px, py, radius);
      SearchIsFirstHit(t.right, px, py, radius);
    }
  }

  /** What `FirstHit` finds is in the list, is hit, and everything before it
      is missed; it finds nothing only when nothing in the list is hit. */
  lemma {:induction false} FirstHitAt<V>(t: Tree<V>, ps: seq<Path>, px: real, py: real, radius: real) returns (k: nat)
    ensures FirstHit(t, ps, px, py, radius).None? <==>
      forall i | 0 <= i < |ps| :: !HitsAt(t, ps[i], px, py, radius)
    ensures FirstHit(t, ps, px, py, radius).Some? ==>
      && k < |ps| && ps[k] == FirstHit(t, ps, px, py, radius).value
      && HitsAt(t, ps[k], px, py, radius)
      && forall i | 0 <= i < k :: !HitsAt(t, ps[i], px, py, radius)
  {
    k := 0;
    if |ps| > 0 && !HitsAt(t, ps[0], px, py, radius) {
      var k' := FirstHitAt(t, ps[1..], px, py, radius);
      k := k' + 1;
      forall i | 0 <= i < |ps| && i > 0
        ensures ps[i] == ps[1..][i - 1]
      {
      }
    }
  }

  /** The click selects nothing exactly when it hits no node. */
  lemma SearchMissesIffNoHit<V>(t: Tree<V>, px: real, py: real, radius: real)
    ensures Search(t, px, py, radius).None? <==>
      forall p | ValidPath(t, p) :: !Hit(Follow(t, p), px, py, radius)
  {
    SearchIsFirstHit(t, px, py, radius);
    var ps := Preorder(t);
    var _ := FirstHitAt(t, ps, px, py, radius);
    forall p | ValidPath(t, p) && Hit(Follow(t, p), px, py, radius)
      ensures Search(t, px, py, radius).Some?
    {
      PreorderIsEveryNode(t, p);
      var i :| 0 <= i < |ps| && ps[i] == p;
      assert HitsAt(t, ps[i], px, py, radius);
    }
  }

  /** The selected node is hit and comes first in pre-order among the hit
      nodes: every node before it in pre-order is missed. */
  lemma SearchFirstInPreorder<V>(t: Tree<V>, px: real, py: real, radius: real) returns (k: nat)
    requires Search(t, px, py, radius).Some?
    ensures k < |Preorder(t)| && Preorder(t)[k] == Search(t, px, py, radius).value
    ensures HitsAt(t, Preorder(t)[k], px, py, radius)
    ensures forall i | 0 <= i < k :: !HitsAt(t, Preorder(t)[i], px, py, radius)
  {
    SearchIsFirstHit(t, px, py, radius);
    k := FirstHitAt(t, Preorder(t), px, py, radius);
  }

  // ---- the click ----

  /** The depth argument of the callback: `"-"` or a node's depth. */
  datatype DepthText = Dash | Shown(depth: nat)

  /** The arguments of `onSelectedNodeChanged(node, root, depth)`: the selected
      node (`Nil` for `null`), `"Yes"`/`"No"` for whether it is the root, and
      its depth. */
  datatype Notice<V> = Notice(node: Tree<V>, isRoot: string, depth: DepthText)

  /** The state after a click, and the notification it fired, if any. */
  datatype Click<V> = Click(engine: Engine<V>, notice: Option<Notice<V>>)

  /** The callback's arguments for the selection `found` in the tree `root`:
      `this.root === node` holds for the root's own path, and for an absent
      node when the tree is empty. */
  function Report<V>(root: Tree<V>, found: Option<Path>): Notice<V>
  {
    match found
    case None => Notice(Nil, if root.Nil? then "Yes" else "No", Dash)
    case Some(p) =>
      var n := Follow(root, p);
      Notice(n, if p == [] then "Yes" else "No", if n.Node? then Shown(n.depth) else Dash)
  }

  /** `updateSelectedNode`: search with the current radius; when the result is
      not the previous selection, select it, redraw and notify, and otherwise
      just keep it. */
  function UpdateSelectedNode<V>(e: Engine<V>, canvas: Canvas, px: real, py: real): (c: Click<V>)
    ensures c.engine.selected == Search(e.root, px, py, e.radius)
    ensures c.notice.Some? <==> Search(e.root, px, py, e.radius) != e.selected
    ensures c.notice.None? ==> c.engine == e
  {
    var found := Search(e.root, px, py, e.radius);
    if found == e.selected then Click(e, None)
    else
      var drawn := Draw(e.(selected := found), canvas);
      Click(drawn, Some(Report(drawn.root, found)))
  }

  /** A click keeps the selection on a node of the tree and keeps the shape
      of the tree. */
  lemma ClickKeepsValid<V>(e: Engine<V>, canvas: Canvas, px: real, py: real)
    requires Valid(e)
    ensures Valid(UpdateSelectedNode(e, canvas, px, py).engine)
    ensures Erase(UpdateSelectedNode(e, canvas, px, py).engine.root) == Erase(e.root)
  {
    var c := UpdateSelectedNode(e, canvas, px, py);
    if c.engine.selected.Some? {
      SameShape(c.engine.root, e.root, c.engine.selected.value);
    }
  }

  /** When the callback fires, it receives the newly selected node as the
      redraw left it, "Yes" exactly when that is the root, and its distance
      from the root as its depth; on a miss, no node, "No" (the tree is not
      empty, since something was selected before) and "-". */
  lemma ClickNoticeReports<V>(e: Engine<V>, canvas: Canvas, px: real, py: real)
    requires Valid(e)
    requires UpdateSelectedNode(e, canvas, px, py).notice.Some?
    ensures var c := UpdateSelectedNode(e, canvas, px, py);
      match c.engine.selected
      case Some(p) =>
        && ValidPath(c.engine.root, p)
        && c.notice.value.node == Follow(c.engine.root, p)
        && c.notice.value.node.value == Follow(e.root, p).value
        && (c.notice.value.isRoot == "Yes" <==> p == [])
        && c.notice.value.depth == Shown(|p|)
      case None =>
        c.notice.value == Notice(Nil, "No", Dash)
  {
    var c := UpdateSelectedNode(e, canvas, px, py);
    var found := Search(e.root, px, py, e.radius);
    match found
    case Some(p) =>
      assert e.root.Node?;
      DrawLaysOut(e.(selected := found), canvas);
      SameShape(c.engine.root, e.root, p);
      assert "No" != "Yes";
    case None =>
      assert e.selected.Some?;
      assert e.root.Node?;
      SameShape(c.engine.root, e.root, []);
  }

  /** A click that changes the selection redraws the tree: the radius is
      recomputed from the tree's shape and every node is laid out at its
      slot, while the shape itself is kept. (A click that changes nothing
      leaves the engine as it was, by `UpdateSelectedNode`'s contract.) */
  lemma ClickRedraws<V>(e: Engine<V>, canvas: Canvas, px: real, py: real)
    requires e.root.Node?
    requires UpdateSelectedNode(e, canvas, px, py).notice.Some?
    ensures var c := UpdateSelectedNode(e, canvas, px, py);
      && LaidOut(c.engine.root, canvas, c.engine.radius)
      && c.engine.radius == ScaleFactor * Min(canvas.width as real / Pow2(Height(e.root) - 1) as real,
                                              canvas.height as real / Height(e.root) as real)
      && Erase(c.engine.root) == Erase(e.root)
  {
    var found := Search(e.root, px, py, e.radius);
    DrawLaysOut(e.(selected := found), canvas);
  }

  /** Drawing does not look at the selection. */
  lemma DrawIgnoresSelection<V>(e: Engine<V>, canvas: Canvas, s: Option<Path>)
    ensures Draw(e.(selected := s), canvas) == Draw(e, canvas).(selected := s)
  {
  }

  /** On a tree that is already drawn, clicking the same spot twice notifies
      at most once: the second click finds the selection it made. */
  lemma RepeatedClickIsQuiet<V>(e: Engine<V>, canvas: Canvas, px: real, py: real)
    requires Draw(e, canvas) == e
    ensures var first := UpdateSelectedNode(e, canvas, px, py);
      var second := UpdateSelectedNode(first.engine, canvas, px, py);
      second.notice.None? && second.engine == first.engine
  {
    var found := Search(e.root, px, py, e.radius);
    DrawIgnoresSelection(e, canvas, found);
  }

  /** In a laid-out tree with the radius `draw` computes, a click on the
      centre of a node hits that node and no other. */
  lemma OnlyCentreHit<V>(t: Tree<V>, canvas: Canvas, radius: real, p: Path)
    requires LaidOut(t, canvas, radius)
    requires canvas.width > 0 && canvas.height > 0
    requires radius == ScaleFactor * Min(canvas.width as real / Pow2(Height(t) - 1) as real,
                                         canvas.height as real / Height(t) as real)
    requires ValidPath(t, p)
    ensures HitsAt(t, p, Follow(t, p).x, Follow(t, p).y, radius)
    ensures forall q | HitsAt(t, q, Follow(t, p).x, Follow(t, p).y, radius) :: q == p
  {
    var n := Follow(t, p);
    RadiusPositive(canvas, Height(t), radius);
    CentreWithin(n.x, n.y, radius);
    forall q | ValidPath(t, q) && q != p
      ensures !Hit(Follow(t, q), n.x, n.y, radius)
    {
      var m := Follow(t, q);
      assert Dist2(n.x, n.y, m.x, m.y) > Sq(2.0 * radius) by {
        NoOverlap(t, canvas, radius, p, q);
      }
      BeyondDiameter(Dist2(n.x, n.y, m.x, m.y), radius);
    }
  }

  /** After a draw of a non-empty tree on a canvas with an area, a click on
      the centre of a node selects exactly that node. */
  lemma ClickAtCentreSelects<V>(e: Engine<V>, canvas: Canvas, p: Path)
    requires e.root.Node? && canvas.width > 0 && canvas.height > 0
    requires ValidPath(Draw(e, canvas).root, p)
    ensures var d := Draw(e, canvas);
      var n := Follow(d.root, p);
      Search(d.root, n.x, n.y, d.radius) == Some(p)
  {
    var d := Draw(e, canvas);
    var t := d.root;
    var n := Follow(t, p);
    DrawLaysOut(e, canvas);
    SameShape(t, e.root, []);
    OnlyCentreHit(t, canvas, d.radius, p);
    SearchMissesIffNoHit(t, n.x, n.y, d.radius);
  }
}

=== FILE: tree_node.dfy ===
/** The node record of static/js/tree/tree_node.js.

    A `Tree` is either `Nil` (JavaScript's `null` child) or a `Node` holding the
    value, its canvas position, its two exclusively owned children and the depth
    stamped by the last level-order walk.  Being a datatype, a tree can neither
    share nor cycle, which is the ownership discipline the source relies on. */
module TreeNodes {

  datatype Side = Left | Right

  datatype Tree<V> = Nil | Node(value: V, x: real, y: real, left: Tree<V>, right: Tree<V>, depth: nat)

  function Max(a: int, b: int): int
  {
    if a < b then b else a
  }

  /** The child on side `s`. */
  function Child<V>(t: Tree<V>, s: Side): Tree<V>
    requires t.Node?
  {
    if s == Left then t.left else t.right
  }

  /** Number of real nodes on the longest root-to-leaf path (0 for the empty tree). */
  function Height<V>(t: Tree<V>): nat
  {
    match t
    case Nil => 0
    case Node(_, _, _, l, r, _) => 1 + Max(Height(l), Height(r))
  }

  /** Number of real nodes. */
  function Size<V>(t: Tree<V>): nat
  {
    match t
    case Nil => 0
    case Node(_, _, _, l, r, _) => 1 + Size(l) + Size(r)
  }

  /** The tree with its layout data (position and depth) cleared: what is left is
      the shape and the values, which only `insert` changes. */
  function Erase<V>(t: Tree<V>): Tree<V>
  {
    match t
    case Nil => Nil
    case Node(v, _, _, l, r, _) => Node(v, 0.0, 0.0, Erase(l), Erase(r), 0)
  }

  /** `new TreeNode(value)`: every other constructor argument takes its default. */
  function NewNode<V>(value: V): (n: Tree<V>)
    ensures n.Node? && n.value == value
    ensures n.x == 0.0 && n.y == 0.0 && n.depth == 0
    ensures IsLeafNode(n) && Size(n) == 1 && Height(n) == 1
  {
    Node(value, 0.0, 0.0, Nil, Nil, 0)
  }

  /** The `isLeafNode` getter. */
  predicate IsLeafNode<V>(n: Tree<V>)
    requires n.Node?
  {
    n.left.Nil? && n.right.Nil?
  }

  /** A node is a leaf exactly when it is the only node of its subtree, and
      exactly when its subtree has height one. */
  lemma LeafIffAlone<V>(n: Tree<V>)
    requires n.Node?
    ensures IsLeafNode(n) <==> Size(n) == 1
    ensures IsLeafNode(n) <==> Height(n) == 1
  {
  }

  /** `setPos(x, y)`: moves the node and touches nothing else. */
  function SetPos<V>(n: Tree<V>, x: real, y: real): (r: Tree<V>)
    requires n.Node?
    ensures r.Node? && r.x == x && r.y == y
    ensures r.value == n.value && r.left == n.left && r.right == n.right && r.depth == n.depth
  {
    n.(x := x, y := y)
  }

  /** Only the last `setPos` is visible, and re-setting the current position
      changes nothing. */
  lemma SetPosLastWins<V>(n: Tree<V>, x0: real, y0: real, x1: real, y1: real)
    requires n.Node?
    ensures SetPos(SetPos(n, x0, y0), x1, y1) == SetPos(n, x1, y1)
    ensures SetPos(n, n.x, n.y) == n
    ensures Erase(SetPos(n, x0, y0)) == Erase(n)
  {
  }
}

=== FILE: wrappers.dfy ===
/** `Option` stands for a JavaScript value that may be `null`, `Result` for an
    operation that may throw. */
module Wrappers {

  datatype Option<+T> = None | Some(value: T)

  datatype Result<+R, +E> = Success(value: R) | Failure(error: E)
}
